=== FILE: README.md ===
# MonadScore node bot — a Dafny model of its decision core

The MonadScore bot keeps a set of wallets' "nodes" alive on the MonadScore
service. For every account in `accounts.json` it does these steps in order:

- looks up the public IP it is using;
- builds the wallet;
- fetches a bootstrap token;
- signs a challenge;
- logs in;
- claims three tasks (`task003`, `task002`, `task001`);
- reports a new node start time.

Every remote call goes through one retry executor. That is 3 attempts, with
the wait starting at 2000 ms and growing by half after each wait. Each call
carries browser-like headers, with one of four user agents chosen at random,
and may be tunnelled through an HTTP(S) or SOCKS proxy. Proxies come from
`proxy.txt` and are handed out to accounts round-robin. After all accounts,
the bot sleeps 24 hours and starts over.

The model is in seven modules, one file each:

| file | module | models |
|---|---|---|
| `wrappers.dfy` | `Wrappers` | `Option` and `Result` |
| `jsstring.dfy` | `JsString` | the JavaScript string operations the program relies on: truthiness, `startsWith`, `includes`, ASCII `toLowerCase`, `trim` over the ECMAScript whitespace set, `split`/`join` on one character |
| `transport.dfy` | `Transport` | `getHeaders`, `getAxiosConfig`, `newAgent` |
| `retry.dfy` | `Retry` | `requestWithRetry` |
| `proxies.dfy` | `ProxyList` | the parsing in `readProxies` |
| `pipeline.dfy` | `Pipeline` | `getPublicIP`, `getInitialToken`, `loginUser`, `claimTask`, `updateStartTime`, `processAccount` |
| `scheduler.dfy` | `Scheduler` | one cycle of `run()` |

`Retry`'s two central members are:

- `RetryRun` states the retry executor in closed form.
- `RequestWithRetry` is the loop itself, proved equal to `RetryRun`.

The network is a script: a `Network` maps an attempt number to that
attempt's success or failure. An `Env` collects everything outside the
program that one account's pass meets:

- one script per remote call;
- whether the wallet library accepts the key;
- whether it signs;
- the clock.

A pass produces a `Report`. It holds the IP shown, the steps taken in order
and how the pass ended. A step is a remote call (`Sent`, once per call
whatever its retries), a pause (`Paused`) or a signature (`Signed`,
recorded only when `wallet.signMessage` returns).

## Model

| member | source | states |
|---|---|---|
| Retry.RequestWithRetry | index.js:69-93 | The loop settles exactly as `RetryRun` says. The first successful attempt among `retries` is returned, after one wait per earlier failure. Otherwise the last attempt's error is thrown after `retries - 1` waits. With `retries <= 0` it resolves to nothing. |
| Retry.RetryRun | index.js:69-93 | The result is undefined exactly when `retries <= 0`. At most `retries` requests are sent. A returned response follows one fewer wait than requests sent. A throw follows `retries - 1` waits. |
| Retry.Settle | index.js:69-93 | What a caller sees: nothing exactly when `retries <= 0`. A returned response is the answer of some attempt among the first `retries`. A network error thrown is the last attempt's. An unsupported-method error names the method and occurs only for an unsupported one. |
| Retry.RequestFor | index.js:73-81 | There is no request exactly when the method is none of `get`, `post` and `put`. Otherwise `get` selects a GET, `post` a POST and `put` a PUT. `get` sends no body, `post` and `put` send the payload. URL and config pass unchanged. |
| Retry.FirstOk | index.js:70-83 | It returns the first successful attempt: that attempt succeeded and every earlier one failed. It is absent exactly when all `n` attempts fail. |
| Retry.Backoffs | index.js:84-86 | The k-th wait is `backoff * 1.5^k`, and there is one wait per retry. |
| Retry.DefaultScheduleWhenAllFail | index.js:69-93 | With the defaults and three failures, the request is sent three times. The waits are 2000 ms then 3000 ms, and the third error is thrown. |
| Retry.FirstSuccessReturned | index.js:71-82 | A first success at attempt `k` ends the run. Its response is returned after exactly the first `k` waits, and the request was sent `k + 1` times. |
| Retry.SettleIsOutcome | index.js:69-93 | What a caller observes (`Settle`) is the outcome of the full run, whatever the request and the wait schedule. |
| Retry.UnsupportedMethodIsRetried | index.js:79-90 | An unsupported method sends nothing. It still takes every wait and then throws the unsupported-method error. |
| Retry.WaitsGrow | index.js:85-86 | Each wait is 1.5 times the one before, so with a positive start the waits strictly grow. |
| Transport.GetHeaders | index.js:33-45 | Header names are distinct. The five fixed headers carry their values and the chosen user agent. `Authorization: Bearer <token>` is present exactly when the token is truthy. |
| Transport.SchemePrefix | index.js:59-61 | Starting with `scheme://` is equivalent to having that scheme before the first colon. |
| Transport.NewAgent | index.js:58-67 | A tunnel carries the proxy URL unchanged. |
| Transport.HttpsAgentForHttpSchemes | index.js:59-61 | The agent is an HTTPS tunnel exactly when the scheme is `http` or `https`. |
| Transport.SocksAgentForSocksSchemes | index.js:62-63 | The agent is a SOCKS tunnel exactly when the scheme is `socks4` or `socks5`. |
| Transport.NoAgentForOtherSchemes | index.js:58-67 | There is no agent (`null`) exactly when the scheme is none of `http`, `https`, `socks4`, `socks5`. |
| Transport.SchemeIsCaseSensitive | index.js:59-66 | A proxy URL starting with a capital letter, such as `HTTP://…` or `SOCKS5://…`, gets no agent. |
| Transport.GetAxiosConfig | index.js:47-56 | The timeout is 60000 ms and the headers come from `getHeaders`. An `httpsAgent` key exists exactly when the proxy is truthy, and it holds `newAgent(proxy)`. |
| Transport.ConfigTunnelsThroughProxy | index.js:47-67 | A `socks5://` proxy puts a SOCKS tunnel for that same URL into the config. |
| JsString.Includes | index.js:226 | `includes` holds exactly when the needle occurs at some offset. |
| JsString.ToLowerCase | index.js:226 | The length is kept and no ASCII capital remains. Each capital becomes its lower-case letter, and every other character stays unchanged. |
| JsString.ToLowerCaseAppend | index.js:226 | Lowering distributes over concatenation. |
| JsString.LowerOfLower | index.js:226 | A string without ASCII capitals, such as `successfully`, `成功` or `y`, is its own lower case. |
| JsString.ToLowerCaseIdempotent | index.js:226 | Lowering twice is lowering once. |
| JsString.Trim | index.js:110 | The result has no whitespace at either end. It sits inside the input with only whitespace around it. |
| JsString.TrimUnique | index.js:110 | Any whitespace-surrounded, trimmed substring is the trim. |
| JsString.TrimIdempotent | index.js:110 | Trimming twice is trimming once. |
| JsString.Split | index.js:109 | There is at least one piece, no piece holds the separator, and joining the pieces gives back the text. |
| JsString.SplitJoin | index.js:109 | Splitting a join of separator-free pieces returns the pieces. |
| ProxyList.DropEmpty | index.js:111 | It keeps exactly the non-empty entries and never lengthens the list. |
| ProxyList.DropEmptyCounts | index.js:111 | No empty entry remains. Every non-empty entry is kept as often as it occurs, so duplicates survive. |
| ProxyList.TrimEach | index.js:110 | Walking the lines one by one, there is one entry per line, and entry `i` is the trim of line `i`. |
| ProxyList.TrimEachCutsWhitespace | index.js:110 | Each entry is trimmed and sits in its line with only whitespace before and after it, which by `TrimUnique` fixes it. |
| ProxyList.DropEmptyAppend | index.js:111 | Filtering keeps order: filtering a concatenation is concatenating the filtered parts. |
| ProxyList.ParseProxies | index.js:108-111 | Every listed proxy is non-empty, trimmed and free of newlines. |
| ProxyList.ParseMembership | index.js:108-111 | A string is listed exactly when it is the non-empty trim of some line of the file. |
| ProxyList.ParseKeepsOrder | index.js:108-111 | The list equals a line-by-line walk that emits each non-empty trimmed line in file order. |
| ProxyList.ParseIdempotent | index.js:108-111 | Writing the list back one per line and parsing again gives the same list. |
| ProxyList.ParseOfJoined | index.js:108-111 | Non-empty, trimmed, newline-free entries written one per line parse back to exactly those entries. |
| ProxyList.BlankFileListsNone | index.js:108-111 | A file of whitespace only lists no proxy. |
| Pipeline.Send | index.js:69-93 | With the defaults, a call succeeds exactly when one of its three attempts does, with that attempt's response. Otherwise it fails with the third attempt's error. |
| Pipeline.PublicIp | index.js:118-129 | The IP shown is never empty. If some attempt succeeds, the first successful one decides: its truthy `data.ip` is shown, else `未找到 IP`. If all three attempts fail, `获取 IP 出错` is shown. |
| Pipeline.ErrorText | index.js:154 | The error body's truthy `message` wins. Otherwise axios' own message is used. |
| Pipeline.ClaimTask | index.js:145-156 | If some attempt succeeds, the first successful body's truthy message is shown, else `任务领取成功，但服务器未返回消息。`. If all three fail, the message is `领取任务 <id> 失败: ` followed by the error text of the third attempt. |
| Pipeline.IsSuccessMeans | index.js:226 | A message reads as success exactly when `successfully` or `成功` occurs somewhere in its lower case. |
| Pipeline.SuccessIgnoresCase | index.js:235 | A message and its lower case get the same verdict. |
| Pipeline.LocalizedSuccess | index.js:226 | Any message containing `成功` reads as success. |
| Pipeline.DefaultMessagesAreSuccess | index.js:150-163 | Both fallback messages, for a claim and for the start time, read as success. |
| Pipeline.PrefixKeepsVerdict | index.js:226 | Some prefixes never decide whether a message reads as success. This holds for a prefix that ends in a space and holds no `y`, `Y` or `功`. |
| Pipeline.ClaimVerdictFollowsServer | index.js:145-156 | A claim reads as success exactly when the service's own text does. That text is the body message, the fallback, or the error body's message. The failure prefix never flips the verdict. |
| Pipeline.UpdateStartTime | index.js:158-177 | If some attempt succeeds, the first successful body decides: its truthy message, else `启动节点成功`, and its points, else `未知`. If all three fail, the message is `启动节点失败: ` plus the third error's text, and the points come from the error's response body, else `N/A`. The message reads as success exactly when the service's text does. |
| Pipeline.SignAndLogin | index.js:201-216 | Signing and login succeed exactly when the signer works and the login call answers with a body. The token is that body's `token`. When the signer throws, authentication fails with `SigningFailed` after a single pause, so no login call is sent. A signature is recorded exactly when the signer works, and then the fourth step is the login call, which carries the bootstrap token it was given. No claim or start-time call is sent, and every call uses the account's proxy. |
| Pipeline.Authenticate | index.js:197-220 | Authentication succeeds exactly when signing works and both token calls answer with a body. The token is the login body's `token`. The first step is the bootstrap call, and nothing else is sent when it gets no body. When it answers but signing fails, the steps are the bootstrap call and one pause, so no login call is sent. Otherwise, after a signature, the fifth step is the login call bearing the bootstrap body's `token`. No claim or start-time call is sent, and every call uses the account's proxy. |
| Pipeline.ClaimEach | index.js:222-231 | There is one report per task, in order. Each report is that task's own claim, whatever became of the others. |
| Pipeline.ClaimCallsMatchReports | index.js:222-225 | Claim call `i` and claim report `i` concern the same task, and there are as many calls as reports. |
| Pipeline.RunSession | index.js:222-239 | After login there is one claim report per task, in task order, each the `ClaimTask` outcome for that task. The node report is the start-time update with the login token. There are four calls, all through the account's proxy. |
| Pipeline.SessionStepsSpelled | index.js:222-234 | After login the calls are claims for task003, task002 and task001, then the start time, all bearing the login token. |
| Pipeline.ProcessAccount | index.js:179-243 | Every pass starts with the public-IP lookup through the account's proxy. |
| Pipeline.ShownIpIsLookedUp | index.js:185-186 | The IP shown for the account is `PublicIp` of the lookup through the account's proxy. |
| Pipeline.RejectedWalletStopsAfterIpLookup | index.js:189-195 | The wallet is rejected exactly when it cannot be built from the key. Then the lookup is the only step, so nothing is sent after it. |
| Pipeline.NodeReportFollowsServer | index.js:233-239 | A completed pass reports the start-time update sent with its login token at the current time, and its node verdict is `IsSuccess` of that report's message. |
| Pipeline.CompletionCondition | index.js:189-220 | A pass completes exactly when the wallet is built, signing works, and both token calls answer with a body. |
| Pipeline.CompletedCarriesLoginToken | index.js:215-234 | A completed pass carries the token of the login call's first answered body. |
| Pipeline.AuthFailureStopsAfterAuthentication | index.js:185-220 | Authentication fails exactly when the wallet is built and `Authenticate` fails. Then the pass reports `Authenticate`'s reason, and its steps are the IP lookup followed by exactly the authentication steps taken. |
| Pipeline.FailureSendsNoSessionCall | index.js:189-220 | A rejected wallet or failed authentication sends no claim and no start-time call. |
| Pipeline.CompletedSteps | index.js:185-239 | A completed pass is the IP lookup, then the authentication steps, then the logged-in session. Its claim and node reports are the session's. |
| Pipeline.CompletedEndsWithClaimsThenStart | index.js:222-234 | A completed pass ends with exactly those four calls, all bearing the login token. |
| Pipeline.CompletedSessionCallsLast | index.js:199-234 | No claim or start-time call comes before the last four steps. |
| Pipeline.EveryCallUsesAssignedProxy | index.js:179-234 | Every call of a pass goes through the proxy assigned to the account. |
| Pipeline.ClaimsAreIndependent | index.js:222-231 | Each claim report carries its task, its own message, and the classification of that message. |
| Pipeline.FirstAttemptAnswers | index.js:69-82 | A call whose first attempt succeeds returns that response. |
| Pipeline.AuthFirstTry | index.js:199-216 | When both token calls answer at once, authentication yields the login body's token. |
| Pipeline.ClaimAnswered | index.js:149-152 | A claim answered with a non-empty message shows that message. |
| Pipeline.ClaimsAnswered | index.js:222-231 | When every claim is answered at once with a non-empty message, each report keeps its task, that message and the message's verdict. |
| Pipeline.StartAnswered | index.js:158-168 | When the start-time call is answered at once with a message and points, both are reported. |
| Pipeline.AllCallsSucceed | index.js:179-243 | When every call answers at once with success messages, the pass completes. All three claims and the node start succeed, and the reported points are shown. |
| Pipeline.BootstrapAlwaysFails | index.js:199-220 | When the bootstrap call fails three times, authentication fails with the third error. Only the IP lookup and the bootstrap call are sent. |
| Pipeline.RefusalIsFailure | index.js:226 | `task already claimed` does not read as success. |
| Pipeline.ThirdClaimRefused | index.js:222-231 | A third claim refused with a message that does not read as success is reported verbatim as a failure. The earlier claims still succeed and the pass still completes. |
| Scheduler.ProxySetup | index.js:269-279 | Proxy mode is on exactly when the proxy list is non-empty. It is on only after a yes. The file is consulted only after a yes. |
| Scheduler.ReadProxies | index.js:105-116 | An unreadable file lists no proxy. A readable file lists exactly `ParseProxies` of its text, so the round-robin list is the file's entries. Every listed proxy is non-empty and trimmed. |
| Scheduler.ReadAccounts | index.js:95-103 | An unreadable or unparsable file gives no accounts. A readable one gives its accounts unchanged. |
| Scheduler.AnswersYesMeans | index.js:272 | The answer means yes exactly when it is a single `y` or `Y` with only whitespace around it. |
| Scheduler.ProxyFor | index.js:288 | An account gets a proxy exactly in proxy mode, and that proxy is one of the listed ones. |
| Scheduler.RunCycle | index.js:269-297 | With no accounts the cycle stops. Otherwise each account gets one pass with its round-robin proxy and its own environment, and the cycle ends with a 86400-second pause. |
| Scheduler.ProcessAll | index.js:287-294 | Account `i` gets `ProxyFor(setup, i)` and exactly the pass it is given with that proxy and its own environment. `RunCycle` gives `processAccount`. |
| Scheduler.EveryProxyUsed | index.js:288 | With at least as many accounts as proxies, every listed proxy is given to some account. |
| Scheduler.ProxyForRound | index.js:288 | In proxy mode, account `q * M + j` gets the `j`-th listed proxy for every round `q`, where `M` is the list length and `j < M`. |
| Scheduler.AssignmentIsPeriodic | index.js:288 | Accounts `i` and `i + M` share a proxy, where `M` is the list length. |
| Scheduler.NoUsableProxyRunsDirect | index.js:269-279 | A no, a missing proxy file, or a blank one runs every account without a proxy. |
| Scheduler.AnswerIsTrimmedAndLowered | index.js:272 | The answer ` Y ` means yes, because it is trimmed and lower-cased first. |
| Scheduler.OnlyTheLetterCounts | index.js:272 | The answer `yes` does not mean yes. |
| Scheduler.ProxyModeAttachesTunnel | index.js:47-56 | In proxy mode each account's config carries the agent `newAgent` builds for its proxy. |
| Scheduler.ListedProxiesTunnel | index.js:269-290 | After a yes with a non-empty list, every account's config has an `httpsAgent`. |

### Two behaviours of the code worth knowing

- **Unsupported method.** The unsupported-method error is thrown inside the
  `try`, so it is caught and retried like a network failure. Every wait is
  taken before it surfaces (`Retry.UnsupportedMethodIsRetried`).
- **Request config.** `getAxiosConfig` runs once per call, at the call site,
  so every retry of a call reuses one config and one random user agent.
  `Pipeline.Call` therefore records only the two inputs of `getAxiosConfig`.

## Left out

- HTTP I/O through axios is replaced by the per-attempt `Network` script.
- `setTimeout`/`delay` are recorded, not performed. The waits are the retry
  executor's `waits` in milliseconds, and the pauses are `Paused` steps in
  seconds and the cycle's `sleepSeconds`.
- The `ethers` wallet library is left out. Building a wallet and signing
  become the two booleans `walletAccepts` and `signerAccepts`. The signature
  value itself is never used by the program.
- File reading and `JSON.parse` are left out. Both files arrive as `Option`
  values, where `None` means reading or parsing failed. `readAccounts`
  therefore hands over already-parsed accounts.
- `readline`, `cfonts`, `chalk`, `ora`, `centerText` and all console output
  are left out, as presentation. The outcome of each pass is the `Report`.
- `Math.random` in `getRandomUserAgent` becomes the parameter `pick < 4`.
- `Date.now()` becomes the `now` field of `Env`.
- `run()` restarting itself after the pause is modelled as one cycle. The
  pause is recorded and further cycles are not.
- `Transport.GetHeaders` builds an ordered list of headers, not a JavaScript
  object. Key order is not modelled beyond distinct names.
- `JsString.ToLowerCase` maps ASCII letters only, not full Unicode case
  mapping. Every string the program compares against is ASCII or has no
  case.
- Numbers are exact. `backoff * 1.5` is real arithmetic, not IEEE doubles.
  The defaults give 2000 and 3000, which are exact in both.
- The try/catch around `processAccount` (index.js:289-293) is left out.
  Service messages are modelled as strings, so `toLowerCase` cannot throw and
  the model's pass never throws.
- `Pipeline.Send` keeps only how a call settles. The retries inside a call
  (the repeated requests and the 2000/3000 ms waits) are not in
  `Report.steps`, where each call is one `Sent` step. `Retry.RetryRun` states
  them, and `Retry.SettleIsOutcome` ties the two.
- `new HttpsProxyAgent(proxy)` and `new SocksProxyAgent(proxy)` come from
  libraries outside this model. Building an agent is assumed never to throw,
  so a malformed proxy URL cannot turn into an IP error or a failed
  authentication here.
- The `invite: null` field of the bootstrap call's payload is not modelled.
  It is constant and nothing depends on it.
- `Pipeline.Send` models the executor's third outcome as impossible. That
  outcome is resolving to `undefined` when `retries <= 0`, and every caller
  passes the default of 3.

=== FILE: jsstring.dfy ===
/**
 * The JavaScript string operations the program relies on, over `seq<char>`:
 * `startsWith`, `includes`, `toLowerCase` (ASCII letters only), `trim`,
 * `split` on a single character, and the truthiness of an optional string.
 */
module JsString {
  import opened Wrappers

  /** A string-or-null value is truthy exactly when it is a non-empty string. */
  predicate Truthy(v: Option<string>) {
    v.Some? && v.value != ""
  }

  /** `s.startsWith(prefix)`: case-sensitive, character by character. */
  predicate StartsWith(s: string, prefix: string) {
    |prefix| <= |s| && s[..|prefix|] == prefix
  }

  /** Texts whose first characters differ do not start one with the other. */
  lemma FirstCharDiffers(s: string, prefix: string)
    requires |s| > 0 && |prefix| > 0 && s[0] != prefix[0]
    ensures !StartsWith(s, prefix)
  {
    if |prefix| <= |s| {
      assert s[..|prefix|][0] == s[0];
    }
  }

  /** `t` occurs in `s` starting at index `i`. */
  predicate OccursAt(s: string, t: string, i: int) {
    0 <= i <= |s| - |t| && s[i..i + |t|] == t
  }

  /** `s.includes(t)`: some occurrence of `t` inside `s`. */
  function Includes(s: string, t: string): (b: bool)
    ensures b <==> exists i :: OccursAt(s, t, i)
    decreases |s|
  {
    if StartsWith(s, t) then
      assert OccursAt(s, t, 0);
      true
    else if |s| == 0 then
      false
    else
      var rest := Includes(s[1..], t);
      if rest then
        var i :| OccursAt(s[1..], t, i);
        assert OccursAt(s, t, i + 1) by {
          assert s[i + 1..i + 1 + |t|] == s[1..][i..i + |t|];
        }
        true
      else
        assert forall i :: OccursAt(s, t, i) ==> OccursAt(s[1..], t, i - 1) by {
          forall i | OccursAt(s, t, i)
            ensures OccursAt(s[1..], t, i - 1)
          {
            assert i != 0;
            assert s[1..][i - 1..i - 1 + |t|] == s[i..i + |t|];
          }
        }
        false
  }

  /** A character of `t` that is absent from `s` rules out `t` occurring in `s`. */
  lemma MissingCharExcludes(s: string, t: string, c: char)
    requires c in t && c !in s
    ensures !Includes(s, t)
  {
    var k :| 0 <= k < |t| && t[k] == c;
    forall i | 0 <= i <= |s| - |t| ensures !OccursAt(s, t, i) {
      assert s[i..i + |t|][k] == s[i + k] != c;
    }
  }

  /**
   * When the last character of `a` is absent from `t` and `t` does not occur
   * in `a`, no occurrence of `t` in `a + b` can start inside `a`.
   */
  lemma IncludesAfterPrefix(a: string, b: string, t: string)
    requires |a| > 0 && a[|a| - 1] !in t && !Includes(a, t)
    ensures Includes(a + b, t) <==> Includes(b, t)
  {
    var s := a + b;
    if Includes(b, t) {
      var i :| OccursAt(b, t, i);
      assert s[|a| + i..|a| + i + |t|] == b[i..i + |t|];
      assert OccursAt(s, t, |a| + i);
    }
    // An occurrence ending inside `a` would be one in `a`.
    forall i | 0 <= i && i + |t| <= |a| ensures !OccursAt(s, t, i) {
      assert !OccursAt(a, t, i);
      assert a[i..i + |t|] == s[i..i + |t|];
    }
    // An occurrence spanning the boundary would contain the last character of `a`.
    forall i | 0 <= i < |a| < i + |t| <= |s| ensures !OccursAt(s, t, i) {
      assert s[i..i + |t|][|a| - 1 - i] == a[|a| - 1];
    }
    forall i | OccursAt(s, t, i) ensures OccursAt(b, t, i - |a|) {
      assert b[i - |a|..i - |a| + |t|] == s[i..i + |t|];
    }
  }

  /** ASCII case folding of one character; every other character is unchanged. */
  function LowerChar(c: char): char {
    if 'A' <= c <= 'Z' then (c as int + 32) as char else c
  }

  predicate IsAsciiUpper(c: char) {
    'A' <= c <= 'Z'
  }

  /** No ASCII capital letter occurs in `s`. */
  predicate NoAsciiUpper(s: string) {
    forall i :: 0 <= i < |s| ==> !IsAsciiUpper(s[i])
  }

  /**
   * `s.toLowerCase()` restricted to ASCII letters: the length is kept, no
   * capital remains, each capital becomes the letter 32 code points above it,
   * and every other character stays where it was.
   */
  function ToLowerCase(s: string): (r: string)
    ensures |r| == |s|
    ensures NoAsciiUpper(r)
    ensures forall i :: 0 <= i < |s| && IsAsciiUpper(s[i]) ==> r[i] as int == s[i] as int + 32
    ensures forall i :: 0 <= i < |s| && !IsAsciiUpper(s[i]) ==> r[i] == s[i]
  {
    seq(|s|, i requires 0 <= i < |s| => LowerChar(s[i]))
  }

  /** Lowering works character by character, so it distributes over concatenation. */
  lemma ToLowerCaseAppend(a: string, b: string)
    ensures ToLowerCase(a + b) == ToLowerCase(a) + ToLowerCase(b)
  {
  }

  /** A string without ASCII capitals is its own lower case (so are `"successfully"`, `"成功"` and `"y"`). */
  lemma LowerOfLower(s: string)
    requires NoAsciiUpper(s)
    ensures ToLowerCase(s) == s
  {
  }

  /** Lowering twice is lowering once. */
  lemma ToLowerCaseIdempotent(s: string)
    ensures ToLowerCase(ToLowerCase(s)) == ToLowerCase(s)
  {
    LowerOfLower(ToLowerCase(s));
  }

  /** Lowering does not create characters that are neither the original nor its ASCII capital. */
  lemma LowerKeepsAbsentChar(s: string, c: char)
    requires !('A' <= c <= 'Z') && c !in s
    requires 'a' <= c <= 'z' ==> (c as int - 32) as char !in s
    ensures c !in ToLowerCase(s)
  {
    forall i | 0 <= i < |s| ensures ToLowerCase(s)[i] != c {
      assert s[i] != c;
    }
  }

  /**
   * The code points `String.prototype.trim` removes: the WhiteSpace and
   * LineTerminator productions of ECMAScript (section 12.2 and 12.3 of ECMA-262).
   */
  predicate IsWhitespace(c: char) {
    || c == '\t' || c == '\n' || c == '\U{000B}' || c == '\U{000C}' || c == '\r'
    || c == ' ' || c == '\U{00A0}' || c == '\U{1680}'
    || ('\U{2000}' <= c <= '\U{200A}')
    || c == '\U{2028}' || c == '\U{2029}' || c == '\U{202F}' || c == '\U{205F}'
    || c == '\U{3000}' || c == '\U{FEFF}'
  }

  /** `r` has no whitespace at either end. */
  predicate IsTrimmed(r: string) {
    r == [] || (!IsWhitespace(r[0]) && !IsWhitespace(r[|r| - 1]))
  }

  /** `r` sits at offset `i` of `s` and only whitespace surrounds it there. */
  predicate Surrounds(s: string, r: string, i: int) {
    && 0 <= i && i + |r| <= |s|
    && s[i..i + |r|] == r
    && (forall k :: 0 <= k < i ==> IsWhitespace(s[k]))
    && (forall k :: i + |r| <= k < |s| ==> IsWhitespace(s[k]))
  }

  /** The index of the first non-whitespace character of `s` at or after `i`, or `|s|`. */
  function SkipBlanks(s: string, i: nat): (n: nat)
    requires i <= |s|
    ensures i <= n <= |s|
    ensures forall k :: i <= k < n ==> IsWhitespace(s[k])
    ensures n < |s| ==> !IsWhitespace(s[n])
    decreases |s| - i
  {
    if i < |s| && IsWhitespace(s[i]) then SkipBlanks(s, i + 1) else i
  }

  /** The index just past the last non-whitespace character of `s[lo..m]`, or `lo`. */
  function SkipBlanksBack(s: string, lo: nat, m: nat): (e: nat)
    requires lo <= m <= |s|
    ensures lo <= e <= m
    ensures forall k :: e <= k < m ==> IsWhitespace(s[k])
    ensures e > lo ==> !IsWhitespace(s[e - 1])
    decreases m
  {
    if m > lo && IsWhitespace(s[m - 1]) then SkipBlanksBack(s, lo, m - 1) else m
  }

  /** `s.trim()`: the part of `s` left after removing whitespace at both ends. */
  function Trim(s: string): (r: string)
    ensures IsTrimmed(r)
    ensures Surrounds(s, r, SkipBlanks(s, 0))
  {
    var n := SkipBlanks(s, 0);
    s[n..SkipBlanksBack(s, n, |s|)]
  }

  /** Trimming is determined by its defining property: any whitespace-free core surrounded only by whitespace is the trim. */
  lemma {:induction false} TrimUnique(s: string, r: string, i: int)
    requires Surrounds(s, r, i) && IsTrimmed(r)
    ensures Trim(s) == r
  {
    var j := SkipBlanks(s, 0);
    var t := Trim(s);
    assert Surrounds(s, t, j);
    // Both start at the first non-whitespace character of `s` and end at its last one.
    assert t != [] ==> s[j] == t[0] && !IsWhitespace(s[j]);
    assert r != [] ==> s[i] == r[0] && !IsWhitespace(s[i]);
    assert t != [] ==> s[j + |t| - 1] == t[|t| - 1] && !IsWhitespace(s[j + |t| - 1]);
    assert r != [] ==> s[i + |r| - 1] == r[|r| - 1] && !IsWhitespace(s[i + |r| - 1]);
    assert |t| == |r|;
    assert r != [] ==> i == j;
  }

  /** Trimming twice is trimming once. */
  lemma TrimIdempotent(s: string)
    ensures Trim(Trim(s)) == Trim(s)
  {
    var t := Trim(s);
    assert t[0..|t|] == t;
    TrimUnique(t, t, 0);
  }

  /** Trimming keeps only characters already present. */
  lemma TrimKeepsAbsentChar(s: string, c: char)
    requires c !in s
    ensures c !in Trim(s)
  {
    var t := Trim(s);
    var j := SkipBlanks(s, 0);
    forall k | 0 <= k < |t| ensures t[k] != c {
      assert s[j + k] == t[k];
    }
  }

  /** Index of the first `c` in `s`, if any. */
  function IndexOf(s: string, c: char): (r: Option<nat>)
    ensures r.Some? ==> r.value < |s| && s[r.value] == c && c !in s[..r.value]
    ensures r.None? <==> c !in s
    decreases |s|
  {
    if |s| == 0 then None
    else if s[0] == c then Some(0)
    else
      match IndexOf(s[1..], c)
      case None => None
      case Some(k) =>
        assert s[..k + 1] == [s[0]] + s[1..][..k];
        Some(k + 1)
  }

  /** `parts.join(sep)` for a single-character separator. */
  function Join(parts: seq<string>, sep: char): string
    decreases |parts|
  {
    if |parts| == 0 then ""
    else if |parts| == 1 then parts[0]
    else parts[0] + [sep] + Join(parts[1..], sep)
  }

  /** `s.split(sep)` for a single-character separator: the pieces between separators. */
  function Split(s: string, sep: char): (parts: seq<string>)
    ensures |parts| >= 1
    ensures forall i :: 0 <= i < |parts| ==> sep !in parts[i]
    ensures Join(parts, sep) == s
    decreases |s|
  {
    match IndexOf(s, sep)
    case None => [s]
    case Some(k) =>
      var rest := Split(s[k + 1..], sep);
      var parts := [s[..k]] + rest;
      assert parts[1..] == rest;
      assert s == s[..k] + [sep] + s[k + 1..];
      parts
  }

  /** The first separator of `a + [sep] + b` is the one after `a` when `a` has none. */
  lemma IndexOfAfterFree(a: string, b: string, sep: char)
    requires sep !in a
    ensures IndexOf(a + [sep] + b, sep) == Some(|a|)
  {
    var s := a + [sep] + b;
    var r := IndexOf(s, sep);
    assert s[|a|] == sep;
    assert s[..|a|] == a;
    forall m | |a| < m <= |s| ensures sep in s[..m] {
      assert s[..m][|a|] == sep;
    }
  }

  /** Splitting a join of separator-free pieces gives the pieces back. */
  lemma {:induction false} SplitJoin(parts: seq<string>, sep: char)
    requires |parts| >= 1
    requires forall i :: 0 <= i < |parts| ==> sep !in parts[i]
    ensures Split(Join(parts, sep), sep) == parts
    decreases |parts|
  {
    var s := Join(parts, sep);
    if |parts| == 1 {
      assert IndexOf(s, sep).None?;
    } else {
      var rest := parts[1..];
      assert s == parts[0] + [sep] + Join(rest, sep);
      IndexOfAfterFree(parts[0], Join(rest, sep), sep);
      assert s[..|parts[0]|] == parts[0];
      assert s[|parts[0]| + 1..] == Join(rest, sep);
      SplitJoin(rest, sep);
      assert Split(s, sep) == [parts[0]] + rest;
    }
  }

  /** Every character of a piece appears in the joined text. */
  lemma {:induction false} JoinKeepsChars(parts: seq<string>, sep: char, i: int)
    requires 0 <= i < |parts|
    ensures forall c :: c in parts[i] ==> c in Join(parts, sep)
    decreases |parts|
  {
    if |parts| > 1 {
      assert Join(parts, sep) == parts[0] + [sep] + Join(parts[1..], sep);
      if i > 0 {
        JoinKeepsChars(parts[1..], sep, i - 1);
        assert parts[1..][i - 1] == parts[i];
      }
    }
  }

  /** A string of whitespace only trims to the empty string. */
  lemma TrimOfBlank(s: string)
    requires forall c :: c in s ==> IsWhitespace(c)
    ensures Trim(s) == ""
  {
  }
}

=== FILE: pipeline.dfy ===
/**
 * One account's pass (`processAccount` with `getPublicIP`, `getInitialToken`,
 * `loginUser`, `claimTask` and `updateStartTime`): public-IP lookup, wallet
 * construction, bootstrap token, signature, login, three task claims and the
 * start-time update. Every remote call goes through the retry executor; what
 * the network answers on each attempt is a script held in `Env`.
 */
module Pipeline {
  import opened Wrappers
  import opened JsString
  import Retry

  /** Every caller uses the executor's defaults: 3 attempts, 2000 ms first wait. */
  const MaxRetries: int := 3
  const InitialBackoff: real := 2000.0

  const IpUrl: string := "https://api.ipify.org?format=json"
  const UserUrl: string := "https://mscore.onrender.com/user"
  const LoginUrl: string := "https://mscore.onrender.com/user/login"
  const ClaimUrl: string := "https://mscore.onrender.com/user/claim-task"
  const StartTimeUrl: string := "https://mscore.onrender.com/user/update-start-time"

  /** The tasks claimed, in claiming order. */
  const Tasks: seq<string> := ["task003", "task002", "task001"]

  const NoIpText: string := "未找到 IP"
  const IpErrorText: string := "获取 IP 出错"
  const ClaimDefaultText: string := "任务领取成功，但服务器未返回消息。"
  const StartDefaultText: string := "启动节点成功"
  const StartFailurePrefix: string := "启动节点失败: "
  const PointsUnknown: string := "未知"
  const PointsNotApplicable: string := "N/A"
  const SignPause: real := 0.5

  /** Prefix of a claim's failure message. */
  function ClaimFailurePrefix(taskId: string): string {
    "领取任务 " + taskId + " 失败: "
  }

  /** The challenge text signed before login; it ends with the wallet address. */
  function SignMessage(wallet: string): string {
    "来自 monadscore.xyz 的请求\n\n消息\n\n签名此消息以验证所有权并继续前往仪表板！\n\n" + wallet
  }

  // ---------------------------------------------------------------------------
  // Remote data

  /** A JSON scalar as the service may report it. */
  datatype Value = Null | Num(n: int) | Str(s: string)

  /** `data.user`; `totalPoints` is `None` when undefined. */
  datatype User = User(totalPoints: Option<Value>)

  /** The fields of a response body the program reads; `None` is undefined. */
  datatype Body = Body(ip: Option<string>, token: Option<string>, message: Option<string>, user: Option<User>)

  /** An HTTP response; `data` is `None` when the body is missing. */
  datatype Response = Response(data: Option<Body>)

  /** What axios throws: its own message and, for HTTP errors, the response. */
  datatype HttpError = HttpError(message: string, response: Option<Response>)

  /** What the network does on each attempt of one call. */
  type Network = nat -> Retry.Attempt<Response, HttpError>

  datatype Payload =
    | UserBody(wallet: string)
    | LoginBody(wallet: string)
    | ClaimBody(wallet: string, taskId: string)
    | StartTimeBody(wallet: string, startTime: int)

  /**
   * One `requestWithRetry` invocation: method, URL, payload, and the two
   * inputs of `getAxiosConfig` (proxy and bearer token).
   */
  datatype Call = Call(verb: string, url: string, payload: Option<Payload>, proxy: Option<string>, token: Option<string>)

  function IpCall(proxy: Option<string>): Call {
    Call("get", IpUrl, None, proxy, None)
  }

  function UserCall(wallet: string, proxy: Option<string>): Call {
    Call("post", UserUrl, Some(UserBody(wallet)), proxy, None)
  }

  function LoginCall(wallet: string, proxy: Option<string>, bootstrap: Option<string>): Call {
    Call("post", LoginUrl, Some(LoginBody(wallet)), proxy, bootstrap)
  }

  function ClaimCall(wallet: string, taskId: string, proxy: Option<string>, token: Option<string>): Call {
    Call("post", ClaimUrl, Some(ClaimBody(wallet, taskId)), proxy, token)
  }

  function StartTimeCall(wallet: string, proxy: Option<string>, token: Option<string>, now: int): Call {
    Call("put", StartTimeUrl, Some(StartTimeBody(wallet, now)), proxy, token)
  }

  /** The call writes a claim or the start time: a call that needs a logged-in session. */
  predicate IsSessionCall(call: Call) {
    call.url == ClaimUrl || call.url == StartTimeUrl
  }

  /** The network answers some attempt out of the three, and that answer has a body. */
  predicate AnswersWithBody(net: Network) {
    match Retry.FirstOk(net, MaxRetries)
    case Some(k) => net(k).response.data.Some?
    case None => false
  }

  /** The body of the first successful attempt, when that attempt has one. */
  function AnsweredBody(net: Network): Body
    requires AnswersWithBody(net)
  {
    net(Retry.FirstOk(net, MaxRetries).value).response.data.value
  }

  /**
   * `requestWithRetry` with the defaults, seen by its caller: the response of
   * the first successful attempt, or the error of the last failed one. It is
   * the outcome of the full run by `Retry.SettleIsOutcome`.
   */
  function Send(call: Call, net: Network): (r: Result<Response, HttpError>)
    requires Retry.VerbOf(call.verb).Some?
    ensures r.Success? <==> Retry.FirstOk(net, MaxRetries).Some?
    ensures r.Success? ==> r.value == net(Retry.FirstOk(net, MaxRetries).value).response
    ensures r.Failure? ==> r.error == net(MaxRetries - 1).error
  {
    match Retry.Settle(call.verb, MaxRetries, net)
    case Returned(response) => Success(response)
    case Threw(Transport(error)) => Failure(error)
    case Threw(UnsupportedMethod(name)) => Failure(HttpError("不支持的请求方法: " + name, None))
    case Undefined => assert false; Failure(HttpError("", None))
  }

  /** `error.response?.data?.message || error.message`. */
  function ErrorText(e: HttpError): (t: string)
    ensures var body := if e.response.Some? then e.response.value.data else None;
      t == match MessageIn(body) case Some(m) => m case None => e.message
  {
    if e.response.Some? && e.response.value.data.Some? && Truthy(e.response.value.data.value.message)
    then e.response.value.data.value.message.value
    else e.message
  }

  /** `data.user.totalPoints`, when the body, the user and the field are all present. */
  function PointsIn(data: Option<Body>): Option<Value> {
    if data.Some? && data.value.user.Some? then data.value.user.value.totalPoints else None
  }

  /** The message a claim's or start-time's body carries, when it is truthy. */
  function MessageIn(data: Option<Body>): Option<string> {
    if data.Some? && Truthy(data.value.message) then data.value.message else None
  }

  // ---------------------------------------------------------------------------
  // Success classification

  /** A status message reads as success when, lower-cased, it contains `successfully` or `成功`. */
  predicate IsSuccess(message: string) {
    var lower := ToLowerCase(message);
    Includes(lower, "successfully") || Includes(lower, "成功")
  }

  /** A message reads as success exactly when, ignoring ASCII case, `successfully` or `成功` occurs somewhere in it. */
  lemma IsSuccessMeans(message: string)
    ensures IsSuccess(message) <==>
      exists i :: OccursAt(ToLowerCase(message), "successfully", i) || OccursAt(ToLowerCase(message), "成功", i)
  {
  }

  /** The verdict ignores ASCII case: a message and its lower case read alike. */
  lemma SuccessIgnoresCase(message: string)
    ensures IsSuccess(ToLowerCase(message)) == IsSuccess(message)
  {
    ToLowerCaseIdempotent(message);
  }

  /** Any text containing `成功` reads as success, whatever surrounds it. */
  lemma LocalizedSuccess(before: string, after: string)
    ensures IsSuccess(before + "成功" + after)
  {
    var m := before + "成功" + after;
    ToLowerCaseAppend(before + "成功", after);
    ToLowerCaseAppend(before, "成功");
    var lower := ToLowerCase(before) + ToLowerCase("成功") + ToLowerCase(after);
    assert ToLowerCase("成功") == "成功";
    assert lower[|before|..|before| + 2] == "成功";
    assert OccursAt(lower, "成功", |before|);
  }

  /** Both fallback messages read as success. */
  lemma DefaultMessagesAreSuccess()
    ensures IsSuccess(ClaimDefaultText)
    ensures IsSuccess(StartDefaultText)
  {
    LocalizedSuccess("任务领取", "，但服务器未返回消息。");
    assert ClaimDefaultText == "任务领取" + "成功" + "，但服务器未返回消息。";
    LocalizedSuccess("启动节点", "");
    assert StartDefaultText == "启动节点" + "成功" + "";
  }

  /**
   * A prefix ending in a space and holding neither `y`/`Y` nor `功` cannot
   * start a match, so it leaves the verdict on the rest unchanged.
   */
  lemma PrefixKeepsVerdict(prefix: string, text: string)
    requires |prefix| > 0 && prefix[|prefix| - 1] == ' '
    requires 'y' !in prefix && 'Y' !in prefix && '功' !in prefix
    ensures IsSuccess(prefix + text) <==> IsSuccess(text)
  {
    ToLowerCaseAppend(prefix, text);
    var lp := ToLowerCase(prefix);
    assert lp[|lp| - 1] == ' ';
    LowerKeepsAbsentChar(prefix, 'y');
    LowerKeepsAbsentChar(prefix, '功');
    MissingCharExcludes(lp, "successfully", 'y');
    MissingCharExcludes(lp, "成功", '功');
    IncludesAfterPrefix(lp, ToLowerCase(text), "successfully");
    IncludesAfterPrefix(lp, ToLowerCase(text), "成功");
  }

  // ---------------------------------------------------------------------------
  // The steps of one account

  /** `getPublicIP(proxy)`: the echoed address, or a placeholder; never fails. */
  function PublicIp(proxy: Option<string>, net: Network): (ip: string)
    ensures ip != ""
    ensures match Retry.FirstOk(net, MaxRetries)
      case Some(k) =>
        var data := net(k).response.data;
        ip == if data.Some? && Truthy(data.value.ip) then data.value.ip.value else NoIpText
      case None => ip == IpErrorText
  {
    match Send(IpCall(proxy), net)
    case Success(response) =>
      if response.data.Some? && Truthy(response.data.value.ip) then response.data.value.ip.value else NoIpText
    case Failure(_) => IpErrorText
  }

  /** `claimTask(...)`: the message shown for one claim; it never throws. */
  function ClaimTask(wallet: string, taskId: string, proxy: Option<string>, token: Option<string>, net: Network): (message: string)
    ensures match Retry.FirstOk(net, MaxRetries)
      case Some(k) => message == (match MessageIn(net(k).response.data) case Some(m) => m case None => ClaimDefaultText)
      case None => message == ClaimFailurePrefix(taskId) + ErrorText(net(MaxRetries - 1).error)
  {
    match Send(ClaimCall(wallet, taskId, proxy, token), net)
    case Success(response) =>
      (match MessageIn(response.data) case Some(message) => message case None => ClaimDefaultText)
    case Failure(error) => ClaimFailurePrefix(taskId) + ErrorText(error)
  }

  /** The service's own words about a claim or start-time call, before any prefix is added. */
  function ServerText(r: Result<Response, HttpError>, fallback: string): string {
    match r
    case Success(response) => (match MessageIn(response.data) case Some(m) => m case None => fallback)
    case Failure(error) => ErrorText(error)
  }

  /** The claim failure prefix of a task id free of `y`, `Y` and `功` meets the needs of `PrefixKeepsVerdict`. */
  lemma ClaimPrefixPlain(taskId: string)
    requires 'y' !in taskId && 'Y' !in taskId && '功' !in taskId
    ensures var prefix := ClaimFailurePrefix(taskId);
      |prefix| > 0 && prefix[|prefix| - 1] == ' ' && 'y' !in prefix && 'Y' !in prefix && '功' !in prefix
  {
    var head, tail := "领取任务 ", " 失败: ";
    assert 'y' !in head && 'Y' !in head && '功' !in head;
    assert 'y' !in tail && 'Y' !in tail && '功' !in tail;
    assert ClaimFailurePrefix(taskId) == head + taskId + tail;
  }

  lemma TaskIdsPlain(i: nat)
    requires i < |Tasks|
    ensures 'y' !in Tasks[i] && 'Y' !in Tasks[i] && '功' !in Tasks[i]
  {
  }

  /**
   * A claim is classified as successful exactly when the service's text
   * (the success body's message, the fallback, or the error body's message)
   * is: the failure prefix never decides the verdict.
   */
  lemma ClaimVerdictFollowsServer(wallet: string, i: nat, proxy: Option<string>, token: Option<string>, net: Network)
    requires i < |Tasks|
    ensures IsSuccess(ClaimTask(wallet, Tasks[i], proxy, token, net)) <==>
      IsSuccess(ServerText(Send(ClaimCall(wallet, Tasks[i], proxy, token), net), ClaimDefaultText))
  {
    var r := Send(ClaimCall(wallet, Tasks[i], proxy, token), net);
    if r.Failure? {
      TaskIdsPlain(i);
      ClaimPrefixPlain(Tasks[i]);
      PrefixKeepsVerdict(ClaimFailurePrefix(Tasks[i]), ErrorText(r.error));
    }
  }

  /** How the total points are reported: the service's figure, or a fallback label. */
  datatype Points = Reported(value: Value) | Fallback(text: string)

  /** What `updateStartTime` hands back. */
  datatype NodeReport = NodeReport(message: string, totalPoints: Points)

  /**
   * `updateStartTime(...)`: the status message and the total points, read
   * from the success body or, on failure, from the error's response body.
   */
  function UpdateStartTime(wallet: string, proxy: Option<string>, token: Option<string>, now: int, net: Network): (r: NodeReport)
    ensures match Retry.FirstOk(net, MaxRetries)
      case Some(k) =>
        && r.message == (match MessageIn(net(k).response.data) case Some(m) => m case None => StartDefaultText)
        && r.totalPoints == (match PointsIn(net(k).response.data) case Some(v) => Reported(v) case None => Fallback(PointsUnknown))
      case None =>
        var e := net(MaxRetries - 1).error;
        && r.message == StartFailurePrefix + ErrorText(e)
        && r.totalPoints == (match PointsIn(if e.response.Some? then e.response.value.data else None)
                             case Some(v) => Reported(v) case None => Fallback(PointsNotApplicable))
    ensures IsSuccess(r.message) <==> IsSuccess(ServerText(Send(StartTimeCall(wallet, proxy, token, now), net), StartDefaultText))
  {
    match Send(StartTimeCall(wallet, proxy, token, now), net)
    case Success(response) =>
      var message := match MessageIn(response.data) case Some(m) => m case None => StartDefaultText;
      var points := match PointsIn(response.data) case Some(v) => Reported(v) case None => Fallback(PointsUnknown);
      NodeReport(message, points)
    case Failure(error) =>
      var message := StartFailurePrefix + ErrorText(error);
      PrefixKeepsVerdict(StartFailurePrefix, ErrorText(error));
      var data := if error.response.Some? then error.response.value.data else None;
      var points := match PointsIn(data) case Some(v) => Reported(v) case None => Fallback(PointsNotApplicable);
      NodeReport(message, points)
  }

  // ---------------------------------------------------------------------------
  // processAccount

  /** One entry of `accounts.json`. */
  datatype Account = Account(walletAddress: string, privateKey: string)

  /**
   * Everything outside the program that one account's pass meets: the
   * network's answer to every attempt of every call, whether the wallet
   * library accepts the key and signs, and the clock.
   */
  datatype Env = Env(
    ipEcho: Network,
    walletAccepts: bool,
    bootstrap: Network,
    signerAccepts: bool,
    login: Network,
    claim: string -> Network,
    startTime: Network,
    now: int)

  /** What one account's pass does, in order, as seen from outside. */
  datatype Step = Sent(call: Call) | Paused(seconds: real) | Signed(message: string)

  /** Every call among `steps` goes through `proxy`. */
  predicate AllThrough(steps: seq<Step>, proxy: Option<string>) {
    forall i :: 0 <= i < |steps| ==> steps[i].Sent? ==> steps[i].call.proxy == proxy
  }

  /** No claim and no start-time call among `steps`. */
  predicate NoSessionCall(steps: seq<Step>) {
    forall i :: 0 <= i < |steps| ==> !(steps[i].Sent? && IsSessionCall(steps[i].call))
  }

  lemma ThroughConcat(a: seq<Step>, b: seq<Step>, proxy: Option<string>)
    requires AllThrough(a, proxy) && AllThrough(b, proxy)
    ensures AllThrough(a + b, proxy)
  {
    forall i | |a| <= i < |a + b| ensures (a + b)[i] == b[i - |a|] {
    }
  }

  lemma NoSessionConcat(a: seq<Step>, b: seq<Step>)
    requires NoSessionCall(a) && NoSessionCall(b)
    ensures NoSessionCall(a + b)
  {
    forall i | |a| <= i < |a + b| ensures (a + b)[i] == b[i - |a|] {
    }
  }

  /** Why authentication stopped an account's pass. */
  datatype AuthFailure =
    | BootstrapFailed(error: HttpError)
    | BootstrapBodyMissing
    | SigningFailed
    | LoginFailed(error: HttpError)
    | LoginBodyMissing

  /** The token authentication produced (possibly undefined), or why it failed, and the steps taken. */
  datatype Auth = Auth(token: Result<Option<string>, AuthFailure>, steps: seq<Step>)

  /**
   * The authentication `try` after the bootstrap token: pause, signature,
   * pause, login. Reading `.token` of a missing body throws, so it fails too.
   */
  function SignAndLogin(wallet: string, proxy: Option<string>, bootstrap: Option<string>, env: Env): (r: Auth)
    ensures r.token.Success? <==> env.signerAccepts && AnswersWithBody(env.login)
    ensures r.token.Success? ==> r.token.value == AnsweredBody(env.login).token
    ensures env.signerAccepts ==> |r.steps| == 4 && r.steps[3] == Sent(LoginCall(wallet, proxy, bootstrap))
    ensures Signed(SignMessage(wallet)) in r.steps <==> env.signerAccepts
    ensures !env.signerAccepts ==> r.token == Failure(SigningFailed) && r.steps == [Paused(SignPause)]
    ensures NoSessionCall(r.steps) && AllThrough(r.steps, proxy)
  {
    if !env.signerAccepts then Auth(Failure(SigningFailed), [Paused(SignPause)])
    else
      var loginCall := LoginCall(wallet, proxy, bootstrap);
      var steps := [Paused(SignPause), Signed(SignMessage(wallet)), Paused(SignPause), Sent(loginCall)];
      assert steps[3] == Sent(loginCall);
      match Send(loginCall, env.login)
      case Failure(error) => Auth(Failure(LoginFailed(error)), steps)
      case Success(answer) =>
        if answer.data.None? then Auth(Failure(LoginBodyMissing), steps)
        else Auth(Success(answer.data.value.token), steps)
  }

  /**
   * The body of the authentication `try`: bootstrap token, then signing and
   * login. Reading `.token` of a missing body throws, so it fails too.
   */
  function Authenticate(wallet: string, proxy: Option<string>, env: Env): (r: Auth)
    ensures r.token.Success? <==> env.signerAccepts && AnswersWithBody(env.bootstrap) && AnswersWithBody(env.login)
    ensures r.token.Success? ==> r.token.value == AnsweredBody(env.login).token
    ensures |r.steps| > 0 && r.steps[0] == Sent(UserCall(wallet, proxy))
    ensures !AnswersWithBody(env.bootstrap) ==> |r.steps| == 1
    ensures AnswersWithBody(env.bootstrap) && env.signerAccepts ==>
      |r.steps| == 5 && r.steps[4] == Sent(LoginCall(wallet, proxy, AnsweredBody(env.bootstrap).token))
    ensures AnswersWithBody(env.bootstrap) && !env.signerAccepts ==>
      r.token == Failure(SigningFailed) && r.steps == [Sent(UserCall(wallet, proxy)), Paused(SignPause)]
    ensures NoSessionCall(r.steps) && AllThrough(r.steps, proxy)
  {
    var userCall := UserCall(wallet, proxy);
    match Send(userCall, env.bootstrap)
    case Failure(error) => Auth(Failure(BootstrapFailed(error)), [Sent(userCall)])
    case Success(response) =>
      if response.data.None? then Auth(Failure(BootstrapBodyMissing), [Sent(userCall)])
      else
        var rest := SignAndLogin(wallet, proxy, response.data.value.token, env);
        NoSessionConcat([Sent(userCall)], rest.steps);
        ThroughConcat([Sent(userCall)], rest.steps, proxy);
        Auth(rest.token, [Sent(userCall)] + rest.steps)
  }

  /** One claim as displayed: the task, its message, and whether it read as success. */
  datatype ClaimReport = ClaimReport(taskId: string, message: string, succeeded: bool)

  function ClaimOne(wallet: string, taskId: string, proxy: Option<string>, token: Option<string>, env: Env): ClaimReport {
    var message := ClaimTask(wallet, taskId, proxy, token, env.claim(taskId));
    ClaimReport(taskId, message, IsSuccess(message))
  }

  /**
   * The claiming loop: every task is claimed in order whatever became of the
   * ones before it, since a claim never throws.
   */
  function ClaimEach(wallet: string, tasks: seq<string>, proxy: Option<string>, token: Option<string>, env: Env): (r: seq<ClaimReport>)
    ensures |r| == |tasks|
    ensures forall i :: 0 <= i < |tasks| ==> r[i] == ClaimOne(wallet, tasks[i], proxy, token, env)
    decreases |tasks|
  {
    if |tasks| == 0 then []
    else [ClaimOne(wallet, tasks[0], proxy, token, env)] + ClaimEach(wallet, tasks[1..], proxy, token, env)
  }

  /** The calls the claiming loop sends, one per task, in order. */
  function ClaimSteps(wallet: string, tasks: seq<string>, proxy: Option<string>, token: Option<string>): seq<Step> {
    seq(|tasks|, i requires 0 <= i < |tasks| => Sent(ClaimCall(wallet, tasks[i], proxy, token)))
  }

  /** What the logged-in part of a pass produced: the claim reports, the node report, and the calls sent. */
  datatype Session = Session(claims: seq<ClaimReport>, node: NodeReport, steps: seq<Step>)

  /**
   * The part of `processAccount` after a successful login: the three claims in
   * order, then the start-time update, every call through the account's proxy
   * and bearing the login token.
   */
  function RunSession(wallet: string, proxy: Option<string>, token: Option<string>, env: Env): (s: Session)
    ensures |s.claims| == |Tasks| && |s.steps| == |Tasks| + 1
    ensures forall i :: 0 <= i < |Tasks| ==> s.claims[i].taskId == Tasks[i]
    ensures forall i :: 0 <= i < |Tasks| ==> s.claims[i] == ClaimOne(wallet, Tasks[i], proxy, token, env)
    ensures s.node == UpdateStartTime(wallet, proxy, token, env.now, env.startTime)
    ensures AllThrough(s.steps, proxy)
  {
    var claims := ClaimEach(wallet, Tasks, proxy, token, env);
    var steps := ClaimSteps(wallet, Tasks, proxy, token) + [Sent(StartTimeCall(wallet, proxy, token, env.now))];
    TailThrough(wallet, proxy, token, env.now);
    Session(claims, UpdateStartTime(wallet, proxy, token, env.now, env.startTime), steps)
  }

  lemma TailThrough(wallet: string, proxy: Option<string>, token: Option<string>, now: int)
    ensures AllThrough(ClaimSteps(wallet, Tasks, proxy, token) + [Sent(StartTimeCall(wallet, proxy, token, now))], proxy)
  {
    ThroughConcat(ClaimSteps(wallet, Tasks, proxy, token), [Sent(StartTimeCall(wallet, proxy, token, now))], proxy);
  }

  /** Claim call `i` and claim report `i` concern the same task. */
  lemma ClaimCallsMatchReports(wallet: string, tasks: seq<string>, proxy: Option<string>, token: Option<string>, env: Env)
    ensures |ClaimSteps(wallet, tasks, proxy, token)| == |ClaimEach(wallet, tasks, proxy, token, env)|
    ensures forall i :: 0 <= i < |tasks| ==>
      ClaimSteps(wallet, tasks, proxy, token)[i] == Sent(ClaimCall(wallet, ClaimEach(wallet, tasks, proxy, token, env)[i].taskId, proxy, token))
  {
  }

  /** How an account's pass ended. */
  datatype Outcome =
    | WalletRejected
    | AuthFailed(reason: AuthFailure)
    | Completed(loginToken: Option<string>, claims: seq<ClaimReport>, node: NodeReport, nodeSucceeded: bool)

  /** The IP shown, the steps taken, and how the pass ended. */
  datatype Report = Report(usedIp: string, steps: seq<Step>, outcome: Outcome)

  /** `processAccount(account, index, total, proxy)`. */
  function ProcessAccount(account: Account, proxy: Option<string>, env: Env): (r: Report)
    ensures |r.steps| > 0 && r.steps[0] == Sent(IpCall(proxy))
  {
    var wallet := account.walletAddress;
    var ipStep := Sent(IpCall(proxy));
    var usedIp := PublicIp(proxy, env.ipEcho);
    if !env.walletAccepts then Report(usedIp, [ipStep], WalletRejected)
    else
      var auth := Authenticate(wallet, proxy, env);
      match auth.token
      case Failure(reason) => Report(usedIp, [ipStep] + auth.steps, AuthFailed(reason))
      case Success(token) =>
        var session := RunSession(wallet, proxy, token, env);
        Report(usedIp, [ipStep] + auth.steps + session.steps,
               Completed(token, session.claims, session.node, IsSuccess(session.node.message)))
  }

  /** The environment lets a pass complete: the wallet is built, signing works, and both token calls answer with a body. */
  predicate PassCompletes(env: Env) {
    env.walletAccepts && env.signerAccepts && AnswersWithBody(env.bootstrap) && AnswersWithBody(env.login)
  }

  /** An account completes exactly when the wallet is built, signing works, and both token calls answer with a body. */
  lemma CompletionCondition(account: Account, proxy: Option<string>, env: Env)
    ensures ProcessAccount(account, proxy, env).outcome.Completed? <==> PassCompletes(env)
  {
  }

  /** A completed pass carries the token of the login call's answered body. */
  lemma CompletedCarriesLoginToken(account: Account, proxy: Option<string>, env: Env)
    requires PassCompletes(env)
    ensures AnswersWithBody(env.login)
    ensures ProcessAccount(account, proxy, env).outcome.loginToken == AnsweredBody(env.login).token
  {
    CompletionCondition(account, proxy, env);
  }

  /** The IP shown for an account is what the public-IP lookup through its proxy gave. */
  lemma ShownIpIsLookedUp(account: Account, proxy: Option<string>, env: Env)
    ensures ProcessAccount(account, proxy, env).usedIp == PublicIp(proxy, env.ipEcho)
  {
  }

  /**
   * The wallet is rejected exactly when it cannot be built from the key, and
   * then the pass stops after the public-IP lookup.
   */
  lemma RejectedWalletStopsAfterIpLookup(account: Account, proxy: Option<string>, env: Env)
    ensures ProcessAccount(account, proxy, env).outcome.WalletRejected? <==> !env.walletAccepts
    ensures !env.walletAccepts ==> ProcessAccount(account, proxy, env).steps == [Sent(IpCall(proxy))]
  {
  }

  /**
   * A pass fails authentication exactly when the wallet is built and
   * authentication fails; it then reports authentication's reason, and its
   * steps are the IP lookup followed by the authentication steps taken.
   */
  lemma AuthFailureStopsAfterAuthentication(account: Account, proxy: Option<string>, env: Env)
    ensures var r, auth := ProcessAccount(account, proxy, env), Authenticate(account.walletAddress, proxy, env);
      && (r.outcome.AuthFailed? <==> env.walletAccepts && auth.token.Failure?)
      && (r.outcome.AuthFailed? ==>
            r.outcome.reason == auth.token.error && r.steps == [Sent(IpCall(proxy))] + auth.steps)
  {
  }

  /**
   * A completed pass reports the start-time update made with the login
   * token, and judges the node started by that report's message.
   */
  lemma NodeReportFollowsServer(account: Account, proxy: Option<string>, env: Env)
    requires PassCompletes(env)
    ensures var o := ProcessAccount(account, proxy, env).outcome;
      && o.node == UpdateStartTime(account.walletAddress, proxy, o.loginToken, env.now, env.startTime)
      && o.nodeSucceeded == IsSuccess(o.node.message)
  {
    CompletionCondition(account, proxy, env);
  }

  /** A rejected wallet or a failed authentication stops the pass before any claim or start-time call. */
  lemma FailureSendsNoSessionCall(account: Account, proxy: Option<string>, env: Env)
    requires !ProcessAccount(account, proxy, env).outcome.Completed?
    ensures NoSessionCall(ProcessAccount(account, proxy, env).steps)
  {
    if env.walletAccepts {
      NoSessionConcat([Sent(IpCall(proxy))], Authenticate(account.walletAddress, proxy, env).steps);
    }
  }

  /** A completed pass is the IP lookup and authentication followed by the logged-in session. */
  lemma CompletedSteps(account: Account, proxy: Option<string>, env: Env)
    requires PassCompletes(env)
    ensures var r := ProcessAccount(account, proxy, env);
      var wallet := account.walletAddress;
      var session := RunSession(wallet, proxy, r.outcome.loginToken, env);
      && r.steps == [Sent(IpCall(proxy))] + Authenticate(wallet, proxy, env).steps + session.steps
      && r.outcome.claims == session.claims
      && r.outcome.node == session.node
  {
    CompletionCondition(account, proxy, env);
  }

  lemma SplitConcat<T>(a: seq<T>, b: seq<T>)
    ensures (a + b)[..|a|] == a && (a + b)[|a|..] == b
  {
  }

  /**
   * A completed pass ends with exactly the three claims, in the order
   * task003, task002, task001, then the start-time call, all bearing the
   * login token.
   */
  lemma CompletedEndsWithClaimsThenStart(account: Account, proxy: Option<string>, env: Env)
    requires PassCompletes(env)
    ensures var r := ProcessAccount(account, proxy, env);
      var wallet, token := account.walletAddress, r.outcome.loginToken;
      && |r.steps| >= 4
      && r.steps[|r.steps| - 4..] == [
           Sent(ClaimCall(wallet, "task003", proxy, token)),
           Sent(ClaimCall(wallet, "task002", proxy, token)),
           Sent(ClaimCall(wallet, "task001", proxy, token)),
           Sent(StartTimeCall(wallet, proxy, token, env.now))]
  {
    CompletionCondition(account, proxy, env);
    var r := ProcessAccount(account, proxy, env);
    var wallet, token := account.walletAddress, r.outcome.loginToken;
    var session := RunSession(wallet, proxy, token, env).steps;
    var prefix := [Sent(IpCall(proxy))] + Authenticate(wallet, proxy, env).steps;
    CompletedSteps(account, proxy, env);
    SplitConcat(prefix, session);
    SessionStepsSpelled(wallet, proxy, token, env);
  }

  /** The calls of the logged-in session, spelled out. */
  lemma SessionStepsSpelled(wallet: string, proxy: Option<string>, token: Option<string>, env: Env)
    ensures RunSession(wallet, proxy, token, env).steps == [
      Sent(ClaimCall(wallet, "task003", proxy, token)),
      Sent(ClaimCall(wallet, "task002", proxy, token)),
      Sent(ClaimCall(wallet, "task001", proxy, token)),
      Sent(StartTimeCall(wallet, proxy, token, env.now))]
  {
  }

  /** In a completed pass no claim or start-time call comes before the last four steps. */
  lemma CompletedSessionCallsLast(account: Account, proxy: Option<string>, env: Env)
    requires PassCompletes(env)
    ensures var steps := ProcessAccount(account, proxy, env).steps;
      |steps| >= 4 && NoSessionCall(steps[..|steps| - 4])
  {
    CompletionCondition(account, proxy, env);
    var r := ProcessAccount(account, proxy, env);
    var wallet := account.walletAddress;
    var auth := Authenticate(wallet, proxy, env).steps;
    var prefix := [Sent(IpCall(proxy))] + auth;
    var session := RunSession(wallet, proxy, r.outcome.loginToken, env).steps;
    CompletedSteps(account, proxy, env);
    SplitConcat(prefix, session);
    NoSessionConcat([Sent(IpCall(proxy))], auth);
  }

  lemma ThroughWhenStopped(account: Account, proxy: Option<string>, env: Env)
    requires !ProcessAccount(account, proxy, env).outcome.Completed?
    ensures AllThrough(ProcessAccount(account, proxy, env).steps, proxy)
  {
    if env.walletAccepts {
      ThroughConcat([Sent(IpCall(proxy))], Authenticate(account.walletAddress, proxy, env).steps, proxy);
    }
  }

  lemma ThroughWhenCompleted(account: Account, proxy: Option<string>, env: Env)
    requires PassCompletes(env)
    ensures AllThrough(ProcessAccount(account, proxy, env).steps, proxy)
  {
    CompletionCondition(account, proxy, env);
    var r := ProcessAccount(account, proxy, env);
    var wallet := account.walletAddress;
    var auth := Authenticate(wallet, proxy, env).steps;
    CompletedSteps(account, proxy, env);
    ThroughConcat([Sent(IpCall(proxy))], auth, proxy);
    ThroughConcat([Sent(IpCall(proxy))] + auth, RunSession(wallet, proxy, r.outcome.loginToken, env).steps, proxy);
  }

  /** Every call of an account's pass goes through the proxy assigned to the account. */
  lemma EveryCallUsesAssignedProxy(account: Account, proxy: Option<string>, env: Env)
    ensures AllThrough(ProcessAccount(account, proxy, env).steps, proxy)
  {
    if ProcessAccount(account, proxy, env).outcome.Completed? {
      ThroughWhenCompleted(account, proxy, env);
    } else {
      ThroughWhenStopped(account, proxy, env);
    }
  }

  /**
   * In a completed pass each claim's report is what that claim alone
   * produced, and its verdict is the classification of its message.
   */
  lemma ClaimsAreIndependent(account: Account, proxy: Option<string>, env: Env, i: nat)
    requires PassCompletes(env)
    requires i < |Tasks|
    ensures var o := ProcessAccount(account, proxy, env).outcome;
      && |o.claims| == |Tasks|
      && o.claims[i].taskId == Tasks[i]
      && o.claims[i].message == ClaimTask(account.walletAddress, Tasks[i], proxy, o.loginToken, env.claim(Tasks[i]))
      && o.claims[i].succeeded == IsSuccess(o.claims[i].message)
  {
    CompletionCondition(account, proxy, env);
  }

  // ---------------------------------------------------------------------------
  // End-to-end scenarios

  /** A call whose first attempt succeeds returns that attempt's response. */
  lemma FirstAttemptAnswers(call: Call, net: Network)
    requires Retry.VerbOf(call.verb).Some? && net(0).Ok?
    ensures Send(call, net) == Success(net(0).response)
  {
    Retry.FirstOkIs(net, MaxRetries, 0);
  }

  /** Both token calls answer their first attempt with a body: authentication yields the login body's token. */
  lemma AuthFirstTry(wallet: string, proxy: Option<string>, env: Env, bootstrap: Option<string>, session: Option<string>)
    requires env.signerAccepts
    requires env.bootstrap(0) == Retry.Ok(Response(Some(Body(None, bootstrap, None, None))))
    requires env.login(0) == Retry.Ok(Response(Some(Body(None, session, None, None))))
    ensures Authenticate(wallet, proxy, env).token == Success(session)
  {
    FirstAttemptAnswers(UserCall(wallet, proxy), env.bootstrap);
    FirstAttemptAnswers(LoginCall(wallet, proxy, bootstrap), env.login);
  }

  /** A claim whose first attempt answers with a non-empty message shows that message. */
  lemma ClaimAnswered(wallet: string, taskId: string, proxy: Option<string>, token: Option<string>, net: Network, message: string)
    requires message != ""
    requires net(0) == Retry.Ok(Response(Some(Body(None, None, Some(message), None))))
    ensures ClaimTask(wallet, taskId, proxy, token, net) == message
  {
    FirstAttemptAnswers(ClaimCall(wallet, taskId, proxy, token), net);
  }

  lemma LocalizedSuccessShort()
    ensures IsSuccess("领取成功") && IsSuccess("启动成功")
  {
    LocalizedSuccess("领取", "");
    assert "领取成功" == "领取" + "成功" + "";
    LocalizedSuccess("启动", "");
    assert "启动成功" == "启动" + "成功" + "";
  }

  /** Each claim's first attempt answers with a non-empty message: its report keeps that message and its verdict. */
  lemma ClaimsAnswered(wallet: string, proxy: Option<string>, token: Option<string>, env: Env, messages: seq<string>)
    requires |messages| == |Tasks|
    requires forall i :: 0 <= i < |Tasks| ==>
      messages[i] != "" && env.claim(Tasks[i])(0) == Retry.Ok(Response(Some(Body(None, None, Some(messages[i]), None))))
    ensures forall i :: 0 <= i < |Tasks| ==>
      RunSession(wallet, proxy, token, env).claims[i] == ClaimReport(Tasks[i], messages[i], IsSuccess(messages[i]))
  {
    var claims := ClaimEach(wallet, Tasks, proxy, token, env);
    forall i | 0 <= i < |Tasks| ensures claims[i] == ClaimReport(Tasks[i], messages[i], IsSuccess(messages[i])) {
      ClaimAnswered(wallet, Tasks[i], proxy, token, env.claim(Tasks[i]), messages[i]);
    }
  }

  /** The start-time call's first attempt answers with a message and a points figure: both are reported. */
  lemma StartAnswered(wallet: string, proxy: Option<string>, token: Option<string>, env: Env, message: string, points: Value)
    requires message != ""
    requires env.startTime(0) == Retry.Ok(Response(Some(Body(None, None, Some(message), Some(User(Some(points)))))))
    ensures RunSession(wallet, proxy, token, env).node == NodeReport(message, Reported(points))
  {
    FirstAttemptAnswers(StartTimeCall(wallet, proxy, token, env.now), env.startTime);
  }

  /** Every call answers its first attempt with a success message; the start-time body reports 1200 points. */
  lemma AllCallsSucceed(account: Account, proxy: Option<string>, env: Env)
    requires env.walletAccepts && env.signerAccepts
    requires env.bootstrap(0) == Retry.Ok(Response(Some(Body(None, Some("bootstrap"), None, None))))
    requires env.login(0) == Retry.Ok(Response(Some(Body(None, Some("session"), None, None))))
    requires forall t :: env.claim(t)(0) == Retry.Ok(Response(Some(Body(None, None, Some("领取成功"), None))))
    requires env.startTime(0) == Retry.Ok(Response(Some(Body(None, None, Some("启动成功"), Some(User(Some(Num(1200))))))))
    ensures var o := ProcessAccount(account, proxy, env).outcome;
      && o == Completed(Some("session"), o.claims, o.node, o.nodeSucceeded)
      && |o.claims| == 3
      && o.claims[0].succeeded && o.claims[1].succeeded && o.claims[2].succeeded
      && o.nodeSucceeded
      && o.node.totalPoints == Reported(Num(1200))
  {
    var wallet, token := account.walletAddress, Some("session");
    var ok := "领取成功";
    AuthFirstTry(wallet, proxy, env, Some("bootstrap"), token);
    ClaimsAnswered(wallet, proxy, token, env, [ok, ok, ok]);
    StartAnswered(wallet, proxy, token, env, "启动成功", Num(1200));
    LocalizedSuccessShort();
  }

  /** The bootstrap-token call fails all three attempts: authentication fails and nothing else is sent. */
  lemma BootstrapAlwaysFails(account: Account, proxy: Option<string>, env: Env)
    requires env.walletAccepts
    requires forall k :: 0 <= k < 3 ==> env.bootstrap(k).Fail?
    ensures var r := ProcessAccount(account, proxy, env);
      && r.outcome == AuthFailed(BootstrapFailed(env.bootstrap(2).error))
      && r.steps == [Sent(IpCall(proxy)), Sent(UserCall(account.walletAddress, proxy))]
  {
    assert Retry.FirstOk(env.bootstrap, MaxRetries).None?;
  }

  /** "task already claimed" does not read as success. */
  lemma RefusalIsFailure()
    ensures !IsSuccess("task already claimed")
  {
    var refusal := "task already claimed";
    LowerKeepsAbsentChar(refusal, 'f');
    LowerKeepsAbsentChar(refusal, '功');
    MissingCharExcludes(ToLowerCase(refusal), "successfully", 'f');
    MissingCharExcludes(ToLowerCase(refusal), "成功", '功');
  }

  /**
   * The first two claims succeed and the third is refused with a message that
   * does not read as success (such as "task already claimed", by
   * `RefusalIsFailure`): the refusal is reported verbatim as a failure, and the
   * pass still completes (so the start-time call follows, by
   * `CompletedEndsWithClaimsThenStart`).
   */
  lemma ThirdClaimRefused(account: Account, proxy: Option<string>, env: Env, refusal: string)
    requires env.walletAccepts && env.signerAccepts
    requires env.bootstrap(0) == Retry.Ok(Response(Some(Body(None, Some("bootstrap"), None, None))))
    requires env.login(0) == Retry.Ok(Response(Some(Body(None, Some("session"), None, None))))
    requires env.claim("task003")(0) == Retry.Ok(Response(Some(Body(None, None, Some("领取成功"), None))))
    requires env.claim("task002")(0) == Retry.Ok(Response(Some(Body(None, None, Some("领取成功"), None))))
    requires refusal != "" && !IsSuccess(refusal)
    requires env.claim("task001")(0) == Retry.Ok(Response(Some(Body(None, None, Some(refusal), None))))
    ensures var o := ProcessAccount(account, proxy, env).outcome;
      && o.Completed? && |o.claims| == 3
      && o.claims[0].succeeded && o.claims[1].succeeded
      && o.claims[2] == ClaimReport("task001", refusal, false)
  {
    var wallet, token := account.walletAddress, Some("session");
    var ok := "领取成功";
    AuthFirstTry(wallet, proxy, env, Some("bootstrap"), token);
    ClaimsAnswered(wallet, proxy, token, env, [ok, ok, refusal]);
    LocalizedSuccessShort();
  }
}

=== FILE: proxies.dfy ===
/**
 * The pure part of `readProxies`: split the file text on `'\n'`, trim every
 * line, and keep the lines that are non-empty after trimming.
 */
module ProxyList {
  import opened JsString

  /** `lines.map(line => line.trim())`. */
  function TrimEach(lines: seq<string>): (r: seq<string>)
    ensures |r| == |lines|
    ensures forall i :: 0 <= i < |lines| ==> r[i] == Trim(lines[i])
    decreases |lines|
  {
    if |lines| == 0 then [] else [Trim(lines[0])] + TrimEach(lines[1..])
  }

  /**
   * Each entry is its line with the surrounding whitespace cut off: it is
   * trimmed and only whitespace surrounds it in its line.
   */
  lemma TrimEachCutsWhitespace(lines: seq<string>)
    ensures forall i :: 0 <= i < |lines| ==>
      IsTrimmed(TrimEach(lines)[i]) && exists k :: Surrounds(lines[i], TrimEach(lines)[i], k)
  {
    forall i | 0 <= i < |lines|
      ensures IsTrimmed(TrimEach(lines)[i]) && exists k :: Surrounds(lines[i], TrimEach(lines)[i], k)
    {
      assert Surrounds(lines[i], Trim(lines[i]), SkipBlanks(lines[i], 0));
    }
  }

  /** `lines.filter(line => line.length > 0)`. */
  function DropEmpty(lines: seq<string>): (r: seq<string>)
    ensures |r| <= |lines|
    ensures forall i :: 0 <= i < |r| ==> r[i] != ""
    ensures forall x :: x in r <==> x in lines && x != ""
    decreases |lines|
  {
    if |lines| == 0 then []
    else if lines[0] == "" then DropEmpty(lines[1..])
    else [lines[0]] + DropEmpty(lines[1..])
  }

  /** No empty entry remains, and every non-empty entry is kept as often as it occurs. */
  lemma {:induction false} DropEmptyCounts(lines: seq<string>)
    ensures multiset(DropEmpty(lines))[""] == 0
    ensures forall x :: x != "" ==> multiset(DropEmpty(lines))[x] == multiset(lines)[x]
    decreases |lines|
  {
    if |lines| > 0 {
      DropEmptyCounts(lines[1..]);
      assert lines == [lines[0]] + lines[1..];
    }
  }

  /**
   * Filtering keeps file order: it works entry by entry, so filtering a
   * concatenation filters each part and concatenates the results.
   */
  lemma {:induction false} DropEmptyAppend(a: seq<string>, b: seq<string>)
    ensures DropEmpty(a + b) == DropEmpty(a) + DropEmpty(b)
    decreases |a|
  {
    if |a| > 0 {
      assert (a + b)[0] == a[0] && (a + b)[1..] == a[1..] + b;
      DropEmptyAppend(a[1..], b);
      if a[0] != "" {
        assert DropEmpty(a + b) == [a[0]] + DropEmpty(a[1..] + b);
        assert DropEmpty(a) == [a[0]] + DropEmpty(a[1..]);
      }
    } else {
      assert a + b == b;
    }
  }

  /** Filtering a list without empty entries changes nothing. */
  lemma {:induction false} DropEmptyKeepsNonEmpty(lines: seq<string>)
    requires forall i :: 0 <= i < |lines| ==> lines[i] != ""
    ensures DropEmpty(lines) == lines
    decreases |lines|
  {
    if |lines| > 0 {
      DropEmptyKeepsNonEmpty(lines[1..]);
      assert lines == [lines[0]] + lines[1..];
    }
  }

  /** The proxies listed in the text of `proxy.txt`, in file order. */
  function ParseProxies(data: string): (r: seq<string>)
    ensures forall i :: 0 <= i < |r| ==> r[i] != "" && IsTrimmed(r[i]) && '\n' !in r[i]
  {
    var trimmed := TrimEach(Split(data, '\n'));
    TrimmedLinesClean(Split(data, '\n'));
    EntriesFromClean(trimmed);
    DropEmpty(trimmed)
  }

  /** Trimmed lines are trimmed and, coming from split lines, newline-free. */
  lemma TrimmedLinesClean(lines: seq<string>)
    requires forall i :: 0 <= i < |lines| ==> '\n' !in lines[i]
    ensures forall x :: x in TrimEach(lines) ==> IsTrimmed(x) && '\n' !in x
  {
    var trimmed := TrimEach(lines);
    forall x | x in trimmed ensures IsTrimmed(x) && '\n' !in x {
      var i :| 0 <= i < |trimmed| && trimmed[i] == x;
      TrimKeepsAbsentChar(lines[i], '\n');
    }
  }

  lemma EntriesFromClean(lines: seq<string>)
    requires forall x :: x in lines ==> IsTrimmed(x) && '\n' !in x
    ensures forall i :: 0 <= i < |DropEmpty(lines)| ==> IsTrimmed(DropEmpty(lines)[i]) && '\n' !in DropEmpty(lines)[i]
  {
    var r := DropEmpty(lines);
    forall i | 0 <= i < |r| ensures IsTrimmed(r[i]) && '\n' !in r[i] {
      assert r[i] in r;
    }
  }

  /** `x` is the trim of some line of `data`. */
  ghost predicate TrimOfSomeLine(data: string, x: string) {
    exists i :: 0 <= i < |Split(data, '\n')| && Trim(Split(data, '\n')[i]) == x
  }

  /**
   * An entry is listed exactly when it is the trim of some line of the file
   * and not empty.
   */
  lemma ParseMembership(data: string, x: string)
    ensures x in ParseProxies(data) <==> x != "" && TrimOfSomeLine(data, x)
  {
    var lines := Split(data, '\n');
    var trimmed := TrimEach(lines);
    assert x in ParseProxies(data) <==> x in trimmed && x != "";
    if x in trimmed {
      var i :| 0 <= i < |trimmed| && trimmed[i] == x;
      assert Trim(lines[i]) == x;
    }
    if TrimOfSomeLine(data, x) {
      var i :| 0 <= i < |lines| && Trim(lines[i]) == x;
      assert trimmed[i] == x;
    }
  }

  /**
   * Line-by-line reading of the same rule: walk the lines in order, emitting
   * each line's trim unless it is empty.
   */
  function NonEmptyTrims(lines: seq<string>): seq<string>
    decreases |lines|
  {
    if |lines| == 0 then []
    else if Trim(lines[0]) == "" then NonEmptyTrims(lines[1..])
    else [Trim(lines[0])] + NonEmptyTrims(lines[1..])
  }

  lemma {:induction false} MapFilterIsLineByLine(lines: seq<string>)
    ensures DropEmpty(TrimEach(lines)) == NonEmptyTrims(lines)
    decreases |lines|
  {
    if |lines| > 0 {
      MapFilterIsLineByLine(lines[1..]);
      assert TrimEach(lines)[1..] == TrimEach(lines[1..]);
    }
  }

  /** The parsed list keeps file order: it is the line-by-line reading of the file's lines. */
  lemma ParseKeepsOrder(data: string)
    ensures ParseProxies(data) == NonEmptyTrims(Split(data, '\n'))
  {
    MapFilterIsLineByLine(Split(data, '\n'));
  }

  /** Writing the parsed list back one per line and parsing again gives the same list. */
  lemma ParseIdempotent(data: string)
    ensures ParseProxies(Join(ParseProxies(data), '\n')) == ParseProxies(data)
  {
    var proxies := ParseProxies(data);
    if |proxies| == 0 {
      assert Split("", '\n') == [""];
      assert TrimEach([""]) == [Trim("")];
    } else {
      ParseOfJoined(proxies);
    }
  }

  /** Non-empty, trimmed, newline-free entries written one per line parse back to themselves. */
  lemma ParseOfJoined(proxies: seq<string>)
    requires |proxies| > 0
    requires forall i :: 0 <= i < |proxies| ==> proxies[i] != "" && IsTrimmed(proxies[i]) && '\n' !in proxies[i]
    ensures ParseProxies(Join(proxies, '\n')) == proxies
  {
    SplitJoin(proxies, '\n');
    forall i | 0 <= i < |proxies| ensures Trim(proxies[i]) == proxies[i] {
      assert Surrounds(proxies[i], proxies[i], 0);
      TrimUnique(proxies[i], proxies[i], 0);
    }
    assert TrimEach(proxies) == proxies;
    DropEmptyKeepsNonEmpty(proxies);
  }

  /** A file of blank lines lists no proxy. */
  lemma BlankFileListsNone(data: string)
    requires forall c :: c in data ==> IsWhitespace(c)
    ensures ParseProxies(data) == []
  {
    var lines := Split(data, '\n');
    var trimmed := TrimEach(lines);
    forall i | 0 <= i < |lines| ensures trimmed[i] == "" {
      JoinKeepsChars(lines, '\n', i);
      TrimOfBlank(lines[i]);
    }
    DropEmptyOfBlanks(trimmed);
  }

  lemma {:induction false} DropEmptyOfBlanks(lines: seq<string>)
    requires forall i :: 0 <= i < |lines| ==> lines[i] == ""
    ensures DropEmpty(lines) == []
    decreases |lines|
  {
    if |lines| > 0 {
      DropEmptyOfBlanks(lines[1..]);
    }
  }
}

=== FILE: retry.dfy ===
/**
 * `requestWithRetry`: up to `retries` attempts of one request, waiting
 * `backoff` milliseconds before each retry and growing the wait by half after
 * every wait. The network is a script: attempt `k` meets `net(k)`.
 */
module Retry {
  import opened Wrappers

  /** Growth factor of the wait after each retry. */
  const Factor: real := 1.5

  datatype Verb = Get | Post | Put

  /** What reaches the network on one attempt; `get` sends no body. */
  datatype Request<P, C> = Request(verb: Verb, url: string, body: Option<P>, config: C)

  /** What the network does with one attempt. */
  datatype Attempt<R, E> = Ok(response: R) | Fail(error: E)

  /** What `requestWithRetry` can throw. */
  datatype RequestError<E> = Transport(cause: E) | UnsupportedMethod(name: string)

  /** How `requestWithRetry` settles: resolved, rejected, or resolved to `undefined`. */
  datatype Outcome<R, E> = Returned(response: R) | Threw(error: RequestError<E>) | Undefined

  /** The outcome together with the waits taken (ms) and the requests sent, in order. */
  datatype Run<P, C, R, E> = Run(outcome: Outcome<R, E>, waits: seq<real>, sent: seq<Request<P, C>>)

  /** The verb a method name selects; method names compare exactly (`===`). */
  function VerbOf(name: string): Option<Verb> {
    if name == "get" then Some(Get)
    else if name == "post" then Some(Post)
    else if name == "put" then Some(Put)
    else None
  }

  /** The request one attempt sends, or `None` when the method is unsupported. */
  function RequestFor<P, C>(name: string, url: string, payload: Option<P>, config: C): (r: Option<Request<P, C>>)
    ensures r.None? <==> name != "get" && name != "post" && name != "put"
    ensures r.Some? ==> (r.value.verb == Get <==> name == "get")
    ensures r.Some? ==> (r.value.verb == Post <==> name == "post")
    ensures r.Some? ==> (r.value.verb == Put <==> name == "put")
    ensures r.Some? ==> r.value.url == url && r.value.config == config
    ensures r.Some? ==> r.value.body == if name == "get" then None else payload
  {
    match VerbOf(name)
    case None => None
    case Some(verb) => Some(Request(verb, url, if verb == Get then None else payload, config))
  }

  function Pow(x: real, n: nat): real {
    if n == 0 then 1.0 else x * Pow(x, n - 1)
  }

  /** The wait before retry `k + 1`, in milliseconds: `backoff * 1.5^k`. */
  function WaitBefore(backoff: real, k: nat): real {
    backoff * Pow(Factor, k)
  }

  /** The first `n` waits starting from `backoff`. */
  function Backoffs(backoff: real, n: nat): (w: seq<real>)
    ensures |w| == n
    ensures forall k :: 0 <= k < n ==> w[k] == WaitBefore(backoff, k)
    decreases n
  {
    if n == 0 then [] else Backoffs(backoff, n - 1) + [WaitBefore(backoff, n - 1)]
  }

  /** `n` copies of `x`. */
  function Repeat<T>(x: T, n: nat): seq<T> {
    seq(n, _ => x)
  }

  /** The index of the first successful attempt among the first `n`, if any. */
  function FirstOk<R, E>(net: nat -> Attempt<R, E>, n: nat): (r: Option<nat>)
    ensures r.Some? ==> r.value < n && net(r.value).Ok? && forall j :: 0 <= j < r.value ==> net(j).Fail?
    ensures r.None? <==> forall j :: 0 <= j < n ==> net(j).Fail?
    decreases n
  {
    if n == 0 then None
    else
      match FirstOk(net, n - 1)
      case Some(k) => Some(k)
      case None => if net(n - 1).Ok? then Some(n - 1) else None
  }

  /** The first success is unique: no earlier attempt succeeded and this one did. */
  lemma FirstOkIs<R, E>(net: nat -> Attempt<R, E>, n: nat, k: nat)
    requires k < n && net(k).Ok? && forall j :: 0 <= j < k ==> net(j).Fail?
    ensures FirstOk(net, n) == Some(k)
  {
    var f := FirstOk(net, n);
    assert f.Some?;
    assert net(f.value).Ok?;
  }

  /**
   * The settled result of `requestWithRetry` in closed form: nothing at all
   * when `retries <= 0`; otherwise the first success within `retries`
   * attempts, or else the error of the last attempt. An unsupported method
   * fails every attempt without sending anything.
   */
  function RetryRun<P, C, R, E>(name: string, url: string, payload: Option<P>, config: C,
                                retries: int, backoff: real, net: nat -> Attempt<R, E>): (r: Run<P, C, R, E>)
    ensures retries <= 0 <==> r.outcome.Undefined?
    ensures |r.sent| <= if retries <= 0 then 0 else retries
    ensures r.outcome.Returned? ==> |r.waits| == |r.sent| - 1
    ensures r.outcome.Threw? ==> |r.waits| == retries - 1
  {
    if retries <= 0 then Run(Undefined, [], [])
    else
      match RequestFor(name, url, payload, config)
      case None => Run(Threw(UnsupportedMethod(name)), Backoffs(backoff, retries - 1), [])
      case Some(request) =>
        match FirstOk(net, retries)
        case Some(k) => Run(Returned(net(k).response), Backoffs(backoff, k), Repeat(request, k + 1))
        case None => Run(Threw(Transport(net(retries - 1).error)), Backoffs(backoff, retries - 1), Repeat(request, retries))
  }

  /**
   * How a run settles, without its waits and requests: what a caller of
   * `requestWithRetry` observes.
   */
  function Settle<R, E>(name: string, retries: int, net: nat -> Attempt<R, E>): (r: Outcome<R, E>)
    ensures r.Undefined? <==> retries <= 0
    ensures r.Returned? ==> exists k :: 0 <= k < retries && net(k) == Ok(r.response)
    ensures r.Threw? && r.error.Transport? ==> net(retries - 1) == Fail(r.error.cause)
    ensures r.Threw? && r.error.UnsupportedMethod? ==> r.error.name == name && VerbOf(name).None?
  {
    if retries <= 0 then Undefined
    else if VerbOf(name).None? then Threw(UnsupportedMethod(name))
    else
      match FirstOk(net, retries)
      case Some(k) => Returned(net(k).response)
      case None => Threw(Transport(net(retries - 1).error))
  }

  /** `Settle` is the outcome of the full run, whatever the request and the wait schedule. */
  lemma SettleIsOutcome<P, C, R, E>(name: string, url: string, payload: Option<P>, config: C,
                                    retries: int, backoff: real, net: nat -> Attempt<R, E>)
    ensures RetryRun(name, url, payload, config, retries, backoff, net).outcome == Settle(name, retries, net)
  {
  }

  /**
   * `requestWithRetry(method, url, payload, config, retries, backoff)`. The
   * unsupported-method error is raised inside the `try`, so it is caught and
   * retried like a network failure.
   */
  method RequestWithRetry<P, C, R, E>(name: string, url: string, payload: Option<P>, config: C,
                                      retries: int, backoff: real, net: nat -> Attempt<R, E>)
    returns (outcome: Outcome<R, E>, waits: seq<real>, sent: seq<Request<P, C>>)
    ensures Run(outcome, waits, sent) == RetryRun(name, url, payload, config, retries, backoff, net)
  {
    ghost var supported := RequestFor(name, url, payload, config).Some?;
    var wait := backoff;
    waits, sent := [], [];
    var i: nat := 0;
    while i < retries
      invariant retries > 0 ==> i < retries
      invariant retries <= 0 ==> i == 0
      invariant waits == Backoffs(backoff, i)
      invariant wait == WaitBefore(backoff, i)
      invariant sent == if supported then Repeat(RequestFor(name, url, payload, config).value, i) else []
      invariant supported ==> forall j :: 0 <= j < i ==> net(j).Fail?
      decreases retries - i
    {
      var error: RequestError<E>;
      match RequestFor(name, url, payload, config) {
        case Some(request) =>
          RepeatStep(request, i);
          sent := sent + [request];
          if net(i).Ok? {
            FirstSuccessReturned(name, url, payload, config, retries, backoff, net, i);
            return Returned(net(i).response), waits, sent;
          }
          error := Transport(net(i).error);
        case None =>
          error := UnsupportedMethod(name);
      }
      if i < retries - 1 {
        WaitStep(backoff, i);
        waits := waits + [wait];
        wait := wait * Factor;
        i := i + 1;
      } else {
        LastAttemptThrows(name, url, payload, config, retries, backoff, net);
        return Threw(error), waits, sent;
      }
    }
    outcome := Undefined;
  }

  lemma RepeatStep<T>(x: T, n: nat)
    ensures Repeat(x, n + 1) == Repeat(x, n) + [x]
  {
  }

  lemma WaitStep(backoff: real, i: nat)
    ensures WaitBefore(backoff, i + 1) == WaitBefore(backoff, i) * Factor
  {
    assert WaitBefore(backoff, i + 1) == backoff * (Factor * Pow(Factor, i));
  }

  /** When every attempt fails, the run throws after `retries - 1` waits. */
  lemma LastAttemptThrows<P, C, R, E>(name: string, url: string, payload: Option<P>, config: C,
                                      retries: int, backoff: real, net: nat -> Attempt<R, E>)
    requires retries > 0
    requires RequestFor(name, url, payload, config).Some? ==> forall j :: 0 <= j < retries ==> net(j).Fail?
    ensures var request := RequestFor(name, url, payload, config);
      RetryRun(name, url, payload, config, retries, backoff, net) == Run(
        Threw(if request.Some? then Transport(net(retries - 1).error) else UnsupportedMethod(name)),
        Backoffs(backoff, retries - 1),
        if request.Some? then Repeat(request.value, retries) else [])
  {
  }

  /**
   * With the defaults (3 attempts, 2000 ms) and every attempt failing, the
   * request is sent three times, the waits are 2000 ms then 3000 ms, and the
   * third attempt's error is thrown.
   */
  lemma DefaultScheduleWhenAllFail<P, C, R, E>(url: string, payload: Option<P>, config: C, net: nat -> Attempt<R, E>)
    requires forall k :: 0 <= k < 3 ==> net(k).Fail?
    ensures var r := RetryRun("post", url, payload, config, 3, 2000.0, net);
      && r.outcome == Threw(Transport(net(2).error))
      && r.waits == [2000.0, 3000.0]
      && |r.sent| == 3
  {
    var r := RetryRun("post", url, payload, config, 3, 2000.0, net);
    assert FirstOk(net, 3).None?;
    assert Pow(Factor, 1) == 1.5;
    assert r.waits == Backoffs(2000.0, 2);
  }

  /** The first successful attempt ends the loop: its response is returned and nothing further is sent. */
  lemma FirstSuccessReturned<P, C, R, E>(name: string, url: string, payload: Option<P>, config: C,
                                         retries: int, backoff: real, net: nat -> Attempt<R, E>, k: nat)
    requires VerbOf(name).Some? && k < retries
    requires net(k).Ok? && forall j :: 0 <= j < k ==> net(j).Fail?
    ensures RetryRun(name, url, payload, config, retries, backoff, net) ==
      Run(Returned(net(k).response), Backoffs(backoff, k), Repeat(RequestFor(name, url, payload, config).value, k + 1))
  {
    FirstOkIs(net, retries, k);
  }

  /**
   * An unsupported method never reaches the network, yet uses every attempt
   * and every wait before throwing the unsupported-method error.
   */
  lemma UnsupportedMethodIsRetried<P, C, R, E>(name: string, url: string, payload: Option<P>, config: C,
                                               retries: int, backoff: real, net: nat -> Attempt<R, E>)
    requires VerbOf(name).None? && retries > 0
    ensures var r := RetryRun(name, url, payload, config, retries, backoff, net);
      && r.outcome == Threw(UnsupportedMethod(name))
      && r.sent == []
      && r.waits == Backoffs(backoff, retries - 1)
  {
  }

  /** Each wait is one and a half times the one before; with a positive start they strictly grow. */
  lemma {:induction false} WaitsGrow(backoff: real, n: nat)
    ensures forall k :: 0 <= k < n - 1 ==> Backoffs(backoff, n)[k + 1] == Backoffs(backoff, n)[k] * Factor
    ensures backoff > 0.0 ==> forall k :: 0 <= k < n - 1 ==> Backoffs(backoff, n)[k] < Backoffs(backoff, n)[k + 1]
  {
    var w := Backoffs(backoff, n);
    forall k | 0 <= k < n - 1 ensures w[k + 1] == w[k] * Factor {
      assert w[k + 1] == backoff * (Factor * Pow(Factor, k));
      assert w[k] == backoff * Pow(Factor, k);
    }
    if backoff > 0.0 {
      forall k | 0 <= k < n - 1 ensures w[k] < w[k + 1] {
        PowPositive(k);
        assert w[k] > 0.0;
      }
    }
  }

  lemma {:induction false} PowPositive(n: nat)
    ensures Pow(Factor, n) > 0.0
  {
    if n > 0 {
      PowPositive(n - 1);
    }
  }
}

=== FILE: scheduler.dfy ===
/**
 * One cycle of `run()`: the proxy question, the proxy and account files, the
 * round-robin assignment of proxies to accounts, one pass per account, and
 * the day-long pause before the next cycle.
 */
module Scheduler {
  import opened Wrappers
  import opened JsString
  import ProxyList
  import Pipeline
  import Transport

  /** `delay(86400)`: the pause between cycles, in seconds (24 hours). */
  const CycleSleepSeconds: nat := 86400

  /** The answer to the proxy question means yes: `ans.trim().toLowerCase() === 'y'`. */
  predicate AnswersYes(answer: string) {
    ToLowerCase(Trim(answer)) == "y"
  }

  /**
   * `readProxies()`: the parsed list, or the empty list when the file cannot
   * be read (`None`).
   */
  function ReadProxies(proxyFile: Option<string>): (r: seq<string>)
    ensures proxyFile.None? ==> r == []
    ensures proxyFile.Some? ==> r == ProxyList.ParseProxies(proxyFile.value)
    ensures forall i :: 0 <= i < |r| ==> r[i] != "" && IsTrimmed(r[i])
  {
    match proxyFile
    case None => []
    case Some(data) => ProxyList.ParseProxies(data)
  }

  /**
   * `readAccounts()`: the parsed accounts, or the empty list when the file
   * cannot be read or parsed (`None`).
   */
  function ReadAccounts(accountsFile: Option<seq<Pipeline.Account>>): (r: seq<Pipeline.Account>)
    ensures accountsFile.None? ==> r == []
    ensures accountsFile.Some? ==> r == accountsFile.value
  {
    match accountsFile
    case None => []
    case Some(accounts) => accounts
  }

  /** Whether the cycle runs through proxies, and the list it cycles through. */
  datatype Setup = Setup(useProxy: bool, proxies: seq<string>)

  /**
   * The proxy decision: the file is read only after a yes, and an empty list
   * falls back to running without proxies.
   */
  function ProxySetup(answer: string, proxyFile: Option<string>): (s: Setup)
    ensures s.useProxy <==> |s.proxies| > 0
    ensures s.useProxy ==> AnswersYes(answer)
    ensures s.proxies == if AnswersYes(answer) then ReadProxies(proxyFile) else []
  {
    if AnswersYes(answer) then
      var proxies := ReadProxies(proxyFile);
      Setup(|proxies| > 0, proxies)
    else
      Setup(false, [])
  }

  /** `useProxy ? proxies[i % proxies.length] : null`. */
  function ProxyFor(setup: Setup, i: nat): (r: Option<string>)
    requires setup.useProxy ==> |setup.proxies| > 0
    ensures r.Some? <==> setup.useProxy
    ensures r.Some? ==> r.value in setup.proxies
  {
    if setup.useProxy then Some(setup.proxies[i % |setup.proxies|]) else None
  }

  /** How a cycle ended: no accounts, or every account processed and the pause taken. */
  datatype Cycle =
    | NoAccounts
    | Processed(given: seq<Option<string>>, reports: seq<Pipeline.Report>, sleepSeconds: nat)

  /**
   * One cycle of `run()`. Account `i` meets the outside world `env(i)`; the
   * proxy it is given is recorded beside its report.
   */
  method RunCycle(answer: string, proxyFile: Option<string>, accountsFile: Option<seq<Pipeline.Account>>,
                  env: nat -> Pipeline.Env)
    returns (c: Cycle)
    ensures c.NoAccounts? <==> |ReadAccounts(accountsFile)| == 0
    ensures c.Processed? ==>
      var accounts, setup := ReadAccounts(accountsFile), ProxySetup(answer, proxyFile);
      && |c.given| == |accounts| && |c.reports| == |accounts|
      && c.sleepSeconds == CycleSleepSeconds
      && (forall i :: 0 <= i < |accounts| ==> c.given[i] == ProxyFor(setup, i))
      && (forall i :: 0 <= i < |accounts| ==>
            c.reports[i] == Pipeline.ProcessAccount(accounts[i], c.given[i], env(i)))
  {
    var setup := ProxySetup(answer, proxyFile);
    var accounts := ReadAccounts(accountsFile);
    if |accounts| == 0 {
      return NoAccounts;
    }
    var given, reports := ProcessAll(accounts, setup, env, Pipeline.ProcessAccount);
    c := Processed(given, reports, CycleSleepSeconds);
  }

  /**
   * The account loop: account `i` gets `ProxyFor(setup, i)` and one pass.
   * The pass is a parameter (`RunCycle` gives `Pipeline.ProcessAccount`), so
   * the loop does not depend on what a pass does.
   */
  method ProcessAll(accounts: seq<Pipeline.Account>, setup: Setup, env: nat -> Pipeline.Env,
                    pass: (Pipeline.Account, Option<string>, Pipeline.Env) -> Pipeline.Report)
    returns (given: seq<Option<string>>, reports: seq<Pipeline.Report>)
    requires setup.useProxy ==> |setup.proxies| > 0
    ensures |given| == |accounts| && |reports| == |accounts|
    ensures forall i :: 0 <= i < |accounts| ==> given[i] == ProxyFor(setup, i)
    ensures forall i :: 0 <= i < |accounts| ==> reports[i] == pass(accounts[i], given[i], env(i))
  {
    given, reports := [], [];
    var i := 0;
    while i < |accounts|
      invariant 0 <= i <= |accounts|
      invariant |given| == i && |reports| == i
      invariant forall k :: 0 <= k < i ==> given[k] == ProxyFor(setup, k)
      invariant forall k :: 0 <= k < i ==> reports[k] == pass(accounts[k], given[k], env(k))
    {
      var proxy := ProxyFor(setup, i);
      given := given + [proxy];
      reports := reports + [pass(accounts[i], proxy, env(i))];
      i := i + 1;
    }
  }

  /** With at least as many accounts as proxies, every listed proxy is given to some account. */
  lemma EveryProxyUsed(setup: Setup, n: nat)
    requires setup.useProxy && |setup.proxies| > 0 && n >= |setup.proxies|
    ensures forall p :: p in setup.proxies ==> exists i :: 0 <= i < n && ProxyFor(setup, i) == Some(p)
  {
    forall p | p in setup.proxies ensures exists i :: 0 <= i < n && ProxyFor(setup, i) == Some(p) {
      var j :| 0 <= j < |setup.proxies| && setup.proxies[j] == p;
      ProxyForRound(setup, 0, j);
    }
  }

  /** Account `q * M + j`, in round `q` of the `M` listed proxies, gets the `j`-th proxy. */
  lemma ProxyForRound(setup: Setup, q: nat, j: nat)
    requires setup.useProxy && j < |setup.proxies|
    ensures ProxyFor(setup, q * |setup.proxies| + j) == Some(setup.proxies[j])
  {
    ModUnique(q * |setup.proxies| + j, |setup.proxies|, q, j);
  }

  /** The assignment repeats with the length of the proxy list. */
  lemma AssignmentIsPeriodic(setup: Setup, i: nat)
    requires setup.useProxy ==> |setup.proxies| > 0
    ensures ProxyFor(setup, i + |setup.proxies|) == ProxyFor(setup, i)
  {
    if setup.useProxy {
      var m := |setup.proxies|;
      MulStep(i / m, m);
      ModUnique(i + m, m, i / m + 1, i % m);
    }
  }

  lemma MulStep(q: int, m: int)
    ensures (q + 1) * m == q * m + m
  {
  }

  lemma MulMono(d: int, m: int)
    requires d >= 1 && m > 0
    ensures d * m >= m
  {
  }

  /** Euclidean remainder is determined by any quotient-remainder split. */
  lemma ModUnique(a: int, m: int, q: int, r: int)
    requires m > 0 && 0 <= r < m && a == q * m + r
    ensures a % m == r
  {
    var q' := a / m;
    if q > q' {
      MulMono(q - q', m);
    } else if q < q' {
      MulMono(q' - q, m);
    }
  }

  /** A "no", or a proxy file that is missing or blank, runs every account without a proxy. */
  lemma NoUsableProxyRunsDirect(answer: string, proxyFile: Option<string>, i: nat)
    requires !AnswersYes(answer) || proxyFile.None? || (forall c :: c in proxyFile.value ==> IsWhitespace(c))
    ensures ProxyFor(ProxySetup(answer, proxyFile), i) == None
  {
    if AnswersYes(answer) && proxyFile.Some? {
      ProxyList.BlankFileListsNone(proxyFile.value);
    }
  }

  /** A yes is a single `y` or `Y` with nothing but whitespace around it. */
  lemma AnswersYesMeans(answer: string)
    ensures AnswersYes(answer) <==> exists i :: Surrounds(answer, "y", i) || Surrounds(answer, "Y", i)
  {
    if AnswersYes(answer) {
      var t := Trim(answer);
      assert |t| == 1;
      assert t == "y" || t == "Y" by {
        assert t[0] == 'y' || t[0] == 'Y';
      }
      assert Surrounds(answer, t, SkipBlanks(answer, 0));
    }
    if exists i :: Surrounds(answer, "y", i) || Surrounds(answer, "Y", i) {
      var i :| Surrounds(answer, "y", i) || Surrounds(answer, "Y", i);
      if Surrounds(answer, "y", i) {
        TrimUnique(answer, "y", i);
        assert ToLowerCase("y")[0] == 'y';
      } else {
        TrimUnique(answer, "Y", i);
        assert ToLowerCase("Y")[0] == 'y';
      }
    }
  }

  /** Surrounding blanks and capitals do not change the answer: " Y " means yes. */
  lemma AnswerIsTrimmedAndLowered()
    ensures AnswersYes(" Y ")
  {
    var answer := " Y ";
    assert answer[1..2] == "Y";
    assert Surrounds(answer, "Y", 1);
    TrimUnique(answer, "Y", 1);
    assert ToLowerCase("Y")[0] == 'y';
  }

  /** Only the single letter counts: "yes" is not a yes. */
  lemma OnlyTheLetterCounts()
    ensures !AnswersYes("yes")
  {
    assert Surrounds("yes", "yes", 0);
    TrimUnique("yes", "yes", 0);
  }

  /** In proxy mode every request of the account carries a tunnel agent for its proxy. */
  lemma ProxyModeAttachesTunnel(setup: Setup, i: nat, token: Option<string>, pick: nat)
    requires setup.useProxy && |setup.proxies| > 0 && pick < |Transport.UserAgents|
    requires forall k :: 0 <= k < |setup.proxies| ==> setup.proxies[k] != ""
    ensures var proxy := ProxyFor(setup, i);
      var config := Transport.GetAxiosConfig(proxy, token, pick);
      config.httpsAgent == Some(Transport.NewAgent(proxy.value))
  {
    var proxy := ProxyFor(setup, i);
    assert proxy.value == setup.proxies[i % |setup.proxies|];
  }

  /** Proxies read from a file are never empty, so a yes with a listed proxy always tunnels. */
  lemma ListedProxiesTunnel(answer: string, data: string, i: nat, token: Option<string>, pick: nat)
    requires pick < |Transport.UserAgents|
    requires AnswersYes(answer) && |ProxyList.ParseProxies(data)| > 0
    ensures Transport.GetAxiosConfig(ProxyFor(ProxySetup(answer, Some(data)), i), token, pick).httpsAgent.Some?
  {
    var setup := ProxySetup(answer, Some(data));
    ProxyModeAttachesTunnel(setup, i, token, pick);
  }
}

=== FILE: transport.dfy ===
/**
 * Per-request transport configuration (`getHeaders`, `getAxiosConfig`,
 * `newAgent`): fixed headers, an optional bearer token, a fixed timeout and an
 * optional proxy tunnel chosen by the proxy URL's scheme.
 */
module Transport {
  import opened Wrappers
  import opened JsString

  /** The pool a User-Agent is drawn from. */
  const UserAgents: seq<string> := [
    "Mozilla/5.0 (Windows NT 10.0; Win64; x64) AppleWebKit/537.36 (KHTML, like Gecko) Chrome/134.0.0.0 Safari/537.36",
    "Mozilla/5.0 (Macintosh; Intel Mac OS X 10_15_7) AppleWebKit/605.1.15 (KHTML, like Gecko) Version/15.1 Safari/605.1.15",
    "Mozilla/5.0 (X11; Linux x86_64) AppleWebKit/537.36 (KHTML, like Gecko) Chrome/105.0.0.0 Safari/537.36",
    "Mozilla/5.0 (Windows NT 10.0; Win64; x64) AppleWebKit/537.36 (KHTML, like Gecko) Firefox/102.0"
  ]

  const AcceptValue: string := "application/json, text/plain, */*"
  const ContentTypeValue: string := "application/json"
  const OriginValue: string := "https://monadscore.xyz"
  const RefererValue: string := "https://monadscore.xyz/"

  /** Request timeout in milliseconds. */
  const TimeoutMs: nat := 60000

  datatype Header = Header(name: string, value: string)

  /** The value of the first header called `name`, as a header object lookup would give it. */
  function Lookup(headers: seq<Header>, name: string): Option<string>
    decreases |headers|
  {
    if |headers| == 0 then None
    else if headers[0].name == name then Some(headers[0].value)
    else Lookup(headers[1..], name)
  }

  /** No two headers share a name. */
  predicate DistinctNames(headers: seq<Header>) {
    forall i, j :: 0 <= i < j < |headers| ==> headers[i].name != headers[j].name
  }

  /** Every header of a list with distinct names is found by its name. */
  lemma {:induction false} LookupFindsEach(headers: seq<Header>)
    requires DistinctNames(headers)
    ensures forall i :: 0 <= i < |headers| ==> Lookup(headers, headers[i].name) == Some(headers[i].value)
    decreases |headers|
  {
    if |headers| > 0 {
      LookupFindsEach(headers[1..]);
      forall i | 0 < i < |headers|
        ensures Lookup(headers, headers[i].name) == Some(headers[i].value)
      {
        assert headers[1..][i - 1] == headers[i];
      }
    }
  }

  /** A name no header carries is not found. */
  lemma {:induction false} LookupMissing(headers: seq<Header>, name: string)
    requires forall i :: 0 <= i < |headers| ==> headers[i].name != name
    ensures Lookup(headers, name) == None
    decreases |headers|
  {
    if |headers| > 0 {
      LookupMissing(headers[1..], name);
    }
  }

  /**
   * `getHeaders(token)`. `pick` is the index `Math.floor(Math.random() * 4)`
   * chooses into the pool.
   */
  function GetHeaders(token: Option<string>, pick: nat): (r: seq<Header>)
    requires pick < |UserAgents|
    ensures DistinctNames(r)
    ensures Lookup(r, "User-Agent") == Some(UserAgents[pick])
    ensures Lookup(r, "Accept") == Some(AcceptValue)
    ensures Lookup(r, "Content-Type") == Some(ContentTypeValue)
    ensures Lookup(r, "Origin") == Some(OriginValue)
    ensures Lookup(r, "Referer") == Some(RefererValue)
    ensures Lookup(r, "Authorization") == if Truthy(token) then Some("Bearer " + token.value) else None
    ensures |r| == if Truthy(token) then 6 else 5
  {
    var fixed := [
      Header("User-Agent", UserAgents[pick]),
      Header("Accept", AcceptValue),
      Header("Content-Type", ContentTypeValue),
      Header("Origin", OriginValue),
      Header("Referer", RefererValue)
    ];
    var headers :=
      if Truthy(token) then fixed + [Header("Authorization", "Bearer " + token.value)] else fixed;
    assert headers[0] == Header("User-Agent", UserAgents[pick]);
    assert headers[1] == Header("Accept", AcceptValue);
    assert headers[2] == Header("Content-Type", ContentTypeValue);
    assert headers[3] == Header("Origin", OriginValue);
    assert headers[4] == Header("Referer", RefererValue);
    LookupFindsEach(headers);
    assert forall i :: 0 <= i < |fixed| ==> |fixed[i].name| != |"Authorization"|;
    LookupMissing(fixed, "Authorization");
    assert Truthy(token) ==> headers[5] == Header("Authorization", "Bearer " + token.value);
    headers
  }

  /** The scheme of a proxy URL: the text before its first `:`, when `://` follows. */
  function SchemeOf(proxy: string): Option<string> {
    match IndexOf(proxy, ':')
    case None => None
    case Some(k) => if StartsWith(proxy[k..], "://") then Some(proxy[..k]) else None
  }

  /** For a colon-free scheme, starting with `scheme://` is the same as having that scheme. */
  lemma SchemePrefix(proxy: string, scheme: string)
    requires ':' !in scheme
    ensures StartsWith(proxy, scheme + "://") <==> SchemeOf(proxy) == Some(scheme)
  {
    var n := |scheme|;
    if StartsWith(proxy, scheme + "://") {
      assert proxy[..n] == scheme;
      assert proxy[n] == ':';
      var k := IndexOf(proxy, ':').value;
      forall m | 0 <= m < n ensures proxy[m] != ':' {
        assert proxy[m] == scheme[m];
      }
      forall m | n < m <= |proxy| ensures ':' in proxy[..m] {
        assert proxy[..m][n] == ':';
      }
      assert k == n;
      assert proxy[k..][..3] == proxy[n..n + 3] == "://";
    }
    if SchemeOf(proxy) == Some(scheme) {
      var k := IndexOf(proxy, ':').value;
      assert proxy[..k] == scheme;
      assert proxy[..n + 3] == proxy[..k] + proxy[k..][..3];
    }
  }

  /** The proxy tunnel attached to a request: HTTP(S) CONNECT or SOCKS. */
  datatype Agent = HttpsProxyAgent(proxy: string) | SocksProxyAgent(proxy: string)

  /**
   * `newAgent(proxy)`: an HTTP(S) tunnel for `http`/`https` proxies, a SOCKS
   * tunnel for `socks4`/`socks5`, and `null` (after a warning) for anything
   * else. Scheme comparison is case-sensitive.
   */
  function NewAgent(proxy: string): (r: Option<Agent>)
    ensures r.Some? ==> r.value.proxy == proxy
  {
    if StartsWith(proxy, "http://") || StartsWith(proxy, "https://") then
      Some(HttpsProxyAgent(proxy))
    else if StartsWith(proxy, "socks4://") || StartsWith(proxy, "socks5://") then
      Some(SocksProxyAgent(proxy))
    else
      None
  }

  /** The HTTP(S) tunnel is chosen exactly for the `http` and `https` schemes. */
  lemma HttpsAgentForHttpSchemes(proxy: string)
    ensures (NewAgent(proxy).Some? && NewAgent(proxy).value.HttpsProxyAgent?) <==>
      SchemeOf(proxy) == Some("http") || SchemeOf(proxy) == Some("https")
  {
    SchemePrefix(proxy, "http");
    SchemePrefix(proxy, "https");
  }

  /** The SOCKS tunnel is chosen exactly for the `socks4` and `socks5` schemes. */
  lemma SocksAgentForSocksSchemes(proxy: string)
    ensures (NewAgent(proxy).Some? && NewAgent(proxy).value.SocksProxyAgent?) <==>
      SchemeOf(proxy) == Some("socks4") || SchemeOf(proxy) == Some("socks5")
  {
    SchemePrefix(proxy, "socks4");
    SchemePrefix(proxy, "socks5");
    if StartsWith(proxy, "socks4://") || StartsWith(proxy, "socks5://") {
      SocksPrefixIsNotHttp(proxy);
    }
  }

  lemma SocksPrefixIsNotHttp(proxy: string)
    requires StartsWith(proxy, "socks4://") || StartsWith(proxy, "socks5://")
    ensures !StartsWith(proxy, "http://") && !StartsWith(proxy, "https://")
  {
    assert proxy[0] == proxy[..9][0] == 's';
    FirstCharDiffers(proxy, "http://");
    FirstCharDiffers(proxy, "https://");
  }

  /** Any other scheme, or none, gets `null`. */
  lemma NoAgentForOtherSchemes(proxy: string)
    ensures NewAgent(proxy).None? <==>
      SchemeOf(proxy) !in {Some("http"), Some("https"), Some("socks4"), Some("socks5")}
  {
    HttpsAgentForHttpSchemes(proxy);
    SocksAgentForSocksSchemes(proxy);
  }

  /**
   * Scheme comparison is case-sensitive: a proxy URL starting with a capital
   * letter (`HTTP://…`, `SOCKS5://…`) gets no agent, so its account runs
   * without a tunnel.
   */
  lemma SchemeIsCaseSensitive(proxy: string)
    requires |proxy| > 0 && 'A' <= proxy[0] <= 'Z'
    ensures NewAgent(proxy) == None
  {
    FirstCharDiffers(proxy, "http://");
    FirstCharDiffers(proxy, "https://");
    FirstCharDiffers(proxy, "socks4://");
    FirstCharDiffers(proxy, "socks5://");
  }

  /** The axios request configuration; `httpsAgent` is absent, `null`, or a tunnel. */
  datatype Config = Config(headers: seq<Header>, timeout: nat, httpsAgent: Option<Option<Agent>>)

  /**
   * `getAxiosConfig(proxy, token)`: the headers, the fixed timeout, and an
   * `httpsAgent` key only for a truthy proxy.
   */
  function GetAxiosConfig(proxy: Option<string>, token: Option<string>, pick: nat): (r: Config)
    requires pick < |UserAgents|
    ensures r.timeout == TimeoutMs
    ensures r.headers == GetHeaders(token, pick)
    ensures r.httpsAgent.Some? <==> Truthy(proxy)
    ensures r.httpsAgent.Some? ==> r.httpsAgent.value == NewAgent(proxy.value)
  {
    var config := Config(GetHeaders(token, pick), TimeoutMs, None);
    if Truthy(proxy) then config.(httpsAgent := Some(NewAgent(proxy.value))) else config
  }

  /** With a recognised scheme the attached tunnel carries the proxy URL itself. */
  lemma ConfigTunnelsThroughProxy(proxy: string, token: Option<string>, pick: nat)
    requires pick < |UserAgents|
    requires StartsWith(proxy, "socks5://")
    ensures GetAxiosConfig(Some(proxy), token, pick).httpsAgent == Some(Some(SocksProxyAgent(proxy)))
  {
    SocksPrefixIsNotHttp(proxy);
  }
}

=== FILE: wrappers.dfy ===
/** Optional values and success/failure results shared by every module of the model. */
module Wrappers {

  /** A value that may be absent; `None` stands for JavaScript's `null` or `undefined`. */
  datatype Option<+T> = None | Some(value: T)

  /** The result of a step that may throw: `Failure` carries what was thrown. */
  datatype Result<+T, +E> = Success(value: T) | Failure(error: E)
}
